=== FILE: README.md ===
# Portfolio admin: a Dafny model

This project models the core of a personal portfolio site. The site has two halves.

- **The Express server.** It keeps three resource tables in SQLite: `experience`, `education` and `projects`. Anyone may list them. Creating, updating and deleting go through the `authenticateToken` middleware, which expects a JWT bearer token. The login route checks a username and a bcrypt password hash against the `admin` table and issues a token that lasts 24 hours.
- **The admin client.** The API module builds the request URLs, `API_URL` and `BASE_URL`. It turns stored image paths into URLs and decides when a call throws. Each of the three manager pages (experience, education, projects) is a modal form. `handleEdit` pre-fills the form, `closeModal` clears it, and `handleSubmit` packages the form as multipart `FormData` and sends a create or an update. On the experience page, the description textarea is encoded as a JSON list of its non-blank lines and decoded back for editing.

The model follows that structure.

- `Tables` is the row store. Ids come from a high-water mark that never goes down (`AUTOINCREMENT`), rows carry a `created_at` second, and `ORDER BY created_at DESC` is the listing.
- `ExperienceRoutes`, `EducationRoutes` and `ProjectRoutes` implement the twelve resource routes. They include the NOT NULL columns and the upload path `/uploads/<file>` (`Uploads`).
- `Auth` holds the middleware and the login route.
- `Server` dispatches one request against the whole database.
- `Api` is the client API module.
- `DescriptionCodec` is the textarea ⇄ list codec.
- `Editor` is the modal state machine shared by the managers.
- `ExperienceManager`, `EducationManager` and `ProjectsManager` hold each page's form and its `FormData`.
- `Multipart` holds the multipart body and how the server reads it back.
- `EndToEnd` connects a form submission to what the server stores and what the client sees.

Support modules: `Base` (`Option`, `Result`), `Strings` (JavaScript's `split`, `join`, `trim`, `startsWith` and first-occurrence `replace`), and `Decimal` (ids written into URLs and read back by SQLite).

The `PUT` routes set every text column from the body, so an absent field is written as SQL null; only the file column is kept when no file comes. A null in a NOT NULL column makes the statement throw, which gives a 500. The admin client always puts every text input into the body, if only as an empty string, so through the client the difference shows only as a null column turning into `""` on resave (`EndToEnd.ResaveTurnsNullIntoEmpty`).

## Model

| member | source | states |
|---|---|---|
| Tables.Insert | server/index.js:46-47 | The new row gets an id above every id handed out before, and that id becomes the high-water mark. Every other row is found as before, and the table stays valid: ids are positive, bounded by the mark, and strictly increasing. |
| Tables.Update | server/index.js:181-192 | `UPDATE ... WHERE id = ?` rewrites exactly the matching row's columns, never its id or creation time. Every other row is found as before. An unmatched id leaves the table identical. |
| Tables.Delete | server/index.js:196-198 | After the delete the id is not found and every other id is found as before. A present id removes exactly one row. The high-water mark is kept. |
| Tables.DeleteIdempotent | server/index.js:196-198 | Deleting the same id twice is the same as deleting it once. |
| Tables.DeletedIdNotReissued | server/index.js:47 | After a delete, the next insert uses an id larger than the deleted one (`AUTOINCREMENT` never reuses ids). |
| Tables.ListNewestFirst | server/index.js:159 | The listing is a permutation of the table's rows, ordered newest first (ties broken by the larger id). |
| Tables.ListNewestFirstIsListing | server/index.js:159 | The tie-broken order is one of the orders `ORDER BY created_at DESC` may return: same rows, non-increasing creation second. |
| Tables.TiedListingMayPutOlderFirst | server/index.js:159 | As written, two rows created in the same second may be listed older first. |
| Tables.CreatedRowListedFirst | server/index.js:159 | With the id tie-break, a row just inserted at a time no earlier than any stored row comes first in the listing. |
| Uploads.Ref | server/index.js:168 | The stored file reference is null exactly without a file. Otherwise it is `/uploads/` followed by the stored file name. |
| Strings.Split | client/src/admin/ExperienceManager.jsx:37 | `split('\n')` gives at least one piece, and no piece contains the separator. |
| Strings.TrimStart | client/src/admin/ExperienceManager.jsx:37 | The result is a suffix of the string, everything cut off is white space, and it does not start with white space. |
| Strings.TrimEnd | client/src/admin/ExperienceManager.jsx:37 | The result is a prefix of the string, everything cut off is white space, and it does not end with white space. |
| Strings.Trim | client/src/admin/ExperienceManager.jsx:37 | `trim()` is no longer than the string and neither starts nor ends with white space. |
| Strings.SplitJoin | client/src/admin/ExperienceManager.jsx:37 | Splitting a join of separator-free parts on the separator gives the parts back. |
| Strings.JoinSplit | client/src/admin/ExperienceManager.jsx:61 | Joining the split of a string gives the string back. |
| Strings.TrimEmptyIffBlank | client/src/admin/ExperienceManager.jsx:37 | `trim()` is empty exactly when every character is white space. |
| Strings.RemoveFirst | client/src/api.js:3 | A string without the pattern is returned unchanged. Otherwise exactly the first occurrence is cut out. |
| Decimal.Show | client/src/api.js:33 | `${id}` is a non-empty run of decimal digits with no leading zero. |
| Decimal.Parse | server/index.js:178 | Of the texts the client writes into a URL, a route parameter is read as an id exactly when it is a non-empty run of decimal digits. |
| Decimal.ParseShow | client/src/api.js:33 | Reading back the decimal text of an id gives that id. |
| Decimal.ShowInjective | client/src/api.js:33 | Distinct ids are written as distinct texts, so distinct rows have distinct item URLs. |
| Multipart.Lookup | server/index.js:167 | A looked-up field is an entry of the body, and nothing is found exactly when no entry has that name. |
| Multipart.AppendFile | client/src/admin/ExperienceManager.jsx:38 | Appending the file entry after the text entries adds its name only when a file was chosen. The body then has a file exactly when one was chosen, the file is found under its field name, and multer's single-file rule lets the body through. |
| ExperienceRoutes.ParseBody | server/index.js:167 | How the route reads `req.body` once multer has let the request through; file entries are not body fields. The body is read exactly when no text field holds a list and the description is absent, empty or a list. Each of `title`, `company`, `location`, `start_date` and `end_date` is then its field's string, or null when absent. The description is null when absent, the empty text exactly when it is a string, and the list when it is one. |
| ExperienceRoutes.Create | server/index.js:166-175 | The insert fails exactly when `title` or `company` is null, and then nothing changes. On success the new row, under a fresh id, holds the request's fields and the upload's path, and every other row is as before. |
| ExperienceRoutes.Update | server/index.js:177-194 | An unmatched id changes nothing and succeeds. On a matched row, failure happens exactly when `title` or `company` is null. Success rewrites every text column from the request and the logo only when a file came. It keeps the creation time and leaves every other row alone. |
| ExperienceRoutes.Delete | server/index.js:196-199 | The id is gone, every other row is as before, and an unmatched id changes nothing. |
| ExperienceRoutes.Read | server/index.js:160-163 | One element of the answer: the row's id, creation time and every column passed through unchanged, with only the description decoded. |
| ExperienceRoutes.ReadDescription | server/index.js:162 | A null or empty description reads as the empty list. A stored list reads as itself. |
| ExperienceRoutes.List | server/index.js:158-164 | The answer has one element per row and is the decoded form of an order the query may return: every row exactly once, later creation seconds first. |
| ExperienceRoutes.ReadAll | server/index.js:160-163 | Every row of the answer is the decoded row in the same position. |
| ExperienceRoutes.ListOrderedByCreation | server/index.js:159 | The answer lists later creation seconds first. |
| ExperienceRoutes.ListContainsEveryRow | server/index.js:158-163 | Every row of the table appears, decoded, in the answer. |
| ExperienceRoutes.ListHoldsOnlyRows | server/index.js:158-163 | Every element of the answer is a decoded row of the table. |
| EducationRoutes.ParseBody | server/index.js:208 | How the route reads `req.body` once multer has let the request through; file entries are not body fields. The body is read exactly when no field holds a list. Each of `degree`, `institution`, `location` and `year` is then its field's string, or null when absent. |
| EducationRoutes.Create | server/index.js:207-216 | Fails exactly when `degree` or `institution` is null. Otherwise it adds one row under a fresh id holding the request's fields and the logo path, and every other row is as before. |
| EducationRoutes.Update | server/index.js:218-235 | An unmatched id changes nothing and succeeds. A matched row fails exactly on a null `degree` or `institution`. Otherwise every text column is rewritten, and the logo only when a file came. |
| EducationRoutes.Delete | server/index.js:237-240 | The id is gone, and every other row is as before. |
| EducationRoutes.List | server/index.js:202-205 | The answer is the table's rows, each exactly once, with later creation seconds first. |
| ProjectRoutes.ParseBody | server/index.js:249 | How the route reads `req.body` once multer has let the request through; file entries are not body fields. The body is read exactly when no field holds a list. Each of `title`, `description` and `link` is then its field's string, or null when absent. |
| ProjectRoutes.Create | server/index.js:248-257 | Fails exactly when `title` or `link` is null. Otherwise it adds one row under a fresh id holding the request's fields and the image path, and every other row is as before. |
| ProjectRoutes.Update | server/index.js:259-276 | An unmatched id changes nothing and succeeds. A matched row fails exactly on a null `title` or `link`. Otherwise every text column is rewritten, and the image only when a file came. |
| ProjectRoutes.Delete | server/index.js:278-281 | The id is gone, and every other row is as before. |
| ProjectRoutes.List | server/index.js:243-246 | The answer is the table's rows, each exactly once, with later creation seconds first. |
| Auth.BearerToken | server/index.js:133-134 | A missing header gives no token. A token is never empty and never contains a space. |
| Auth.Classify | server/index.js:132-142 | 401 exactly when there is no token, 403 exactly when the token fails verification, and the route runs exactly when it verifies, with the verified payload. |
| Auth.TokenIsSecondSegment | server/index.js:134 | For `word token rest`, the token is the text between the first and the second space. |
| Auth.FirstWordIgnored | server/index.js:134 | The scheme word in front of the token does not affect the outcome. |
| Auth.SingleWordHeaderUnauthorized | server/index.js:134-135 | A header with no space is answered 401 without verifying anything. |
| Auth.FindAdmin | server/index.js:147 | The match found is an admin row with that username, and nothing is found exactly when no row has it. |
| Auth.EmptySecondSegmentUnauthorized | server/index.js:134-135 | A header whose second space-separated segment is empty, such as `Bearer `, and an empty header are answered 401. |
| Auth.Login | server/index.js:145-155 | The route throws exactly when the username exists and the password is not a string (`compareSync` rejects it). Login succeeds exactly when the username exists and a string password matches its hash. The token then carries the admin's id and username and lasts 24 hours. |
| Auth.LoginFailsAlike | server/index.js:149-151 | An unknown username and a wrong string password get the identical answer. |
| Auth.MissingPasswordRevealsUsername | server/index.js:147-149 | Without a string password, an unknown username is refused but a known one makes the route throw, so the two are told apart. |
| Server.Handle | server/index.js:132-281 | Public routes never write. Guarded routes answer 401 or 403 and write nothing without a verified token. Any change needs a guarded, authorized request. A 500 writes nothing. A request touches only the table it targets. The admins are never changed. A guarded request with a verified token runs its route (`Server.Mutate`). |
| Server.Public | server/index.js:145-164 | Login is rejected with `Invalid credentials` exactly when the credentials fail. It answers 500 exactly when the username exists and the password is not a string, and on success it answers with the issued token and the username. Each list route answers with its table's listing. |
| Server.StatusCode | server/index.js:135-154 | `sendStatus` answers carry their own code, the login refusal is 401, an uncaught error is 500, and every other JSON answer is 200. |
| Server.Mutate | server/index.js:166-281 | Each guarded route answers with an id and message, a message, or a 500. A 500 leaves the database as it was, and a request whose upload multer refused is a 500. A request touches only the table it targets, through that table's routes. |
| Server.MutateExperience | server/index.js:166-199 | A create answers 500 exactly on a null `title` or `company`, and otherwise stores the route's new table and answers its id. An update answers 500 exactly when the row exists and a required field is null, and otherwise stores the route's result. A delete stores the route's result and reports success. |
| Server.MutateEducation | server/index.js:207-240 | The same for education, with `degree` and `institution` required. |
| Server.MutateProjects | server/index.js:248-281 | The same for projects, with `title` and `link` required. |
| Server.LoginStatusRevealsUsername | server/index.js:145-151 | A login body without a string password gets 401 for an unknown username and 500 for a known one. |
| Server.MissingIdStillSucceeds | server/index.js:189-198 | An update or delete of an id that matches no row answers with the success message and changes nothing. |
| Server.DeleteTwiceSameAsOnce | server/index.js:196-199 | Repeating a delete gives the same answer and the same database. |
| DescriptionCodec.KeepNonBlank | client/src/admin/ExperienceManager.jsx:37 | The filter keeps only lines whose trim is non-empty, never adding lines. |
| DescriptionCodec.KeepNonBlankAppend | client/src/admin/ExperienceManager.jsx:37 | Filtering distributes over concatenation. |
| DescriptionCodec.KeepNonBlankMembers | client/src/admin/ExperienceManager.jsx:37 | A line survives exactly when it was there and is not blank. |
| DescriptionCodec.KeepNonBlankKeepsAll | client/src/admin/ExperienceManager.jsx:37 | A list with no blank line passes the filter unchanged. |
| DescriptionCodec.Encode | client/src/admin/ExperienceManager.jsx:37 | Every element of the encoded list is free of line feeds and not blank. |
| DescriptionCodec.EncodeMembers | client/src/admin/ExperienceManager.jsx:37 | A line is in the encoded list exactly when it is a line of the text and not blank. |
| DescriptionCodec.EditText | client/src/admin/ExperienceManager.jsx:61 | A description that is not a list gives an empty textarea. A non-empty list of line-free items can be split back off the text. |
| DescriptionCodec.EncodeJoin | client/src/admin/ExperienceManager.jsx:37-61 | Encoding the joined text of line-free, non-blank items gives the items back. |
| DescriptionCodec.EncodeIdempotent | client/src/admin/ExperienceManager.jsx:37-61 | Opening a saved description and saving it unchanged stores the same list. |
| Api.ApiUrl | client/src/api.js:1-2 | `API_URL` is the configured address when it is a non-empty string, and otherwise `http://localhost:3001/api` in development and `/api` in production. |
| Api.StripApi | client/src/api.js:3 | An undefined address stays undefined. An address without `/api` is kept, and otherwise exactly its first `/api` is removed. |
| Api.BaseUrl | client/src/api.js:1-3 | `BASE_URL` is the stripped address when that is a non-empty string, and otherwise `http://localhost:3001` in development and `""` in production. |
| Api.OrElse | client/src/api.js:2-3 | `x \|\| fallback` is the value when it is a non-empty string, and the fallback otherwise. |
| Api.DefaultsAgree | client/src/api.js:1-3 | Without a configured address, `API_URL` is `BASE_URL` followed by `/api`, in development and in production. |
| Api.BaseUrlStripsHostName | client/src/api.js:3 | As written, `https://api.example.com/api` gives the `BASE_URL` `https:/.example.com/api`. |
| Api.StripApiSuffix | client/src/api.js:3 | The intended strip keeps undefined as undefined and removes only a trailing `/api`. |
| Api.IntendedBaseUrlIsOrigin | client/src/api.js:2-3 | With the intended strip, a configured `origin/api` gives the `BASE_URL` `origin`, and `API_URL` is `BASE_URL` followed by `/api`. |
| Api.GetImageUrl | client/src/api.js:114-118 | There is no URL exactly for a null or empty path. An `http...` path is returned as is. Any other path is put behind the base. The path is always a suffix of the URL. |
| Api.GetImageUrlIdempotent | client/src/api.js:114-118 | With an empty or absolute base, applying `getImageUrl` to its own result changes nothing. |
| Api.CollectionUrl | client/src/api.js:18-30 | The list and create URL is `API_URL/<kind>`. |
| Api.ItemUrl | client/src/api.js:32-47 | The update and delete URL is `API_URL/<kind>/<id>`, which extends the collection URL. |
| Api.KindOf | server/index.js:158-278 | A path segment names a resource exactly when it is one of the three table segments, and then it names that one. |
| Api.MatchRoute | server/index.js:158-278 | A matched collection route is exactly `/<kind>`, and a matched item route is `/<kind>/<id>` with a non-empty `:id` free of `/`. |
| Api.CollectionPathRoutes | server/index.js:158-166 | The server routes the path `/<kind>` to that kind's collection route. |
| Api.ItemPathRoutes | server/index.js:177-197 | The server routes `/<kind>/<id>` to that kind's item route, and the `:id` text reads back as the client's id. |
| Api.ClientLogin | client/src/api.js:7-15 | `api.login` throws `Invalid credentials` exactly when the status is outside 200-299, and otherwise returns the server's body. |
| Api.ClientCall | client/src/api.js:18-30 | The other calls throw exactly when the body is not JSON (a `sendStatus` text or a 500 page), whatever the status, and otherwise return the body. |
| Editor.Closed | client/src/admin/ExperienceManager.jsx:5-16 | The initial state is closed, with no id, the empty form and no file. |
| Editor.OpenAdd | client/src/admin/ExperienceManager.jsx:84 | `+ Add` only opens the modal. The id, form and file are left as they are. |
| Editor.Edit | client/src/admin/ExperienceManager.jsx:53-64 | `handleEdit` opens the modal with the row's id and the pre-filled form, and keeps the chosen file. |
| Editor.Type | client/src/admin/ExperienceManager.jsx:148 | Typing changes only the form, and only while the modal is open. |
| Editor.Choose | client/src/admin/ExperienceManager.jsx:137 | Choosing a file changes only the file, and only while the modal is open. |
| Editor.CloseModal | client/src/admin/ExperienceManager.jsx:73-78 | `closeModal` closes the modal and clears the id, the form and the file. |
| Editor.OrEmpty | client/src/admin/ExperienceManager.jsx:58-60 | `value \|\| ''` gives the column's value, or the empty string for null. |
| Editor.Dispatch | client/src/admin/ExperienceManager.jsx:41-45 | It is an update exactly when the editing id is truthy (present and not 0), and then of that id. Otherwise it is a create. |
| Editor.Submit | client/src/admin/ExperienceManager.jsx:40-45 | The call is an update of the editing id exactly when that id is truthy, and it carries the packaged body. |
| Editor.AfterSave | client/src/admin/ExperienceManager.jsx:46-50 | A call that resolves closes and clears the modal and reloads the list. One that throws changes nothing and does not reload. |
| Editor.StepSettled | client/src/admin/ExperienceManager.jsx:73-78 | No single user action leaves a closed modal with leftovers of a previous edit. |
| Editor.RunSettled | client/src/admin/ExperienceManager.jsx:5-16 | From the state on mount, no sequence of actions leaves a closed modal with stale id, form or file. |
| Editor.FillingKeepsId | client/src/admin/ExperienceManager.jsx:137-204 | Typing and choosing files never change the editing id or whether the modal is open. |
| Editor.TypingKeepsFile | client/src/admin/ExperienceManager.jsx:148-204 | Typing alone never changes the chosen file, the id, or whether the modal is open. |
| Editor.AddLeadsToCreate | client/src/admin/ExperienceManager.jsx:84 | `+ Add` from a clean closed modal, then filling in the form, always submits a create. |
| Editor.EditLeadsToUpdate | client/src/admin/ExperienceManager.jsx:53-64 | Editing a row with an id of 1 or more, then filling in the form, submits an update of that row. |
| ExperienceManager.Initial | client/src/admin/ExperienceManager.jsx:5-16 | On mount the modal is closed and clean. |
| ExperienceManager.Prefill | client/src/admin/ExperienceManager.jsx:55-62 | `title` and `company` are copied, a null location or date becomes `""`, and the description becomes its lines joined. |
| ExperienceManager.HandleEdit | client/src/admin/ExperienceManager.jsx:53-64 | Opens with the entry's id and its pre-filled form. |
| ExperienceManager.HandleClose | client/src/admin/ExperienceManager.jsx:73-78 | Closed, no id, every input empty, no logo. |
| ExperienceManager.Package | client/src/admin/ExperienceManager.jsx:31-38 | The body's names are the six inputs in order, plus `logo` exactly when a logo was chosen, and that file is found under `logo`. The body has at most that one file, so `upload.single('logo')` takes it. |
| ExperienceManager.HandleSubmit | client/src/admin/ExperienceManager.jsx:27-45 | Updates the editing id exactly when it is truthy, and sends the packaged body with a file exactly when one was chosen. |
| ExperienceManager.PackageFields | client/src/admin/ExperienceManager.jsx:31-37 | Each input reaches the server as its string, and the description as its encoded list. |
| ExperienceManager.PackageParses | client/src/admin/ExperienceManager.jsx:31-38 | The server reads back every input as a non-null string and the description as its encoded list, so the NOT NULL columns are always satisfied. |
| EducationManager.Prefill | client/src/admin/EducationManager.jsx:51-56 | `degree` and `institution` are copied, and a null location or year becomes `""`. |
| EducationManager.HandleEdit | client/src/admin/EducationManager.jsx:49-58 | Opens with the entry's id and its pre-filled form. |
| EducationManager.HandleClose | client/src/admin/EducationManager.jsx:67-72 | Closed, no id, every input empty, no logo. |
| EducationManager.Package | client/src/admin/EducationManager.jsx:29-34 | The body's names are the four inputs in order, plus `logo` exactly when a logo was chosen. The body has at most that one file, so `upload.single('logo')` takes it. |
| EducationManager.HandleSubmit | client/src/admin/EducationManager.jsx:25-41 | Updates the editing id exactly when it is truthy, and creates otherwise. |
| EducationManager.PackageParses | client/src/admin/EducationManager.jsx:29-34 | The server reads back every input as a non-null string, so the NOT NULL columns are always satisfied. |
| ProjectsManager.Prefill | client/src/admin/ProjectsManager.jsx:49-53 | `title` and `link` are copied, and a null description becomes `""`. |
| ProjectsManager.HandleEdit | client/src/admin/ProjectsManager.jsx:47-55 | Opens with the project's id and its pre-filled form. |
| ProjectsManager.HandleClose | client/src/admin/ProjectsManager.jsx:64-69 | Closed, no id, every input empty, no image. |
| ProjectsManager.Package | client/src/admin/ProjectsManager.jsx:28-32 | The body's names are the three inputs in order, plus `image` exactly when an image was chosen. The body has at most that one file, so `upload.single('image')` takes it. |
| ProjectsManager.HandleSubmit | client/src/admin/ProjectsManager.jsx:24-39 | Updates the editing id exactly when it is truthy, and creates otherwise. |
| ProjectsManager.PackageParses | client/src/admin/ProjectsManager.jsx:28-32 | The server reads back every input as a non-null string, so the NOT NULL columns are always satisfied. |
| EndToEnd.ExperienceRequest | server/index.js:166-187 | A call to the experience endpoints whose body holds a file under a name other than `logo`, or a second file, is refused by `upload.single('logo')` (`LIMIT_UNEXPECTED_FILE`). Any other call becomes a create or an update exactly when its body is readable, an update exactly when the call is. It carries the body as the route reads it (`req.body`), the call's id (`req.params.id`), and the stored file name exactly when the body has a `logo` file (`req.file`). |
| EndToEnd.EducationRequest | server/index.js:207-228 | The same for the education endpoints and `upload.single('logo')`: a stray or second file is refused, and otherwise the call carries the body, the id and the stored `logo` file name exactly when the body has a `logo` file. |
| EndToEnd.ProjectRequest | server/index.js:248-269 | The same for the projects endpoints and `upload.single('image')`: a stray or second file is refused, and otherwise the call carries the body, the id and the stored `image` file name exactly when the body has an `image` file. |
| EndToEnd.RefusedUploadWritesNothing | server/index.js:166-259 | For an authorized caller, a create or update whose files multer refuses answers 500 and leaves every table as it was, on all three resources. |
| EndToEnd.FileUnderTextFieldRefused | server/index.js:166 | A create whose `location` field carries a file instead of text is refused: the answer is 500 and nothing is written. |
| EndToEnd.StoredIdsAreTruthy | client/src/admin/ExperienceManager.jsx:41 | A stored row's id is never 0, so editing a listed row always takes the update branch. |
| EndToEnd.ExperienceEditKeepsLogo | server/index.js:177-194 | Editing an experience entry and changing only text: the client sends an update without a file, the server accepts it, and the stored logo is kept. |
| EndToEnd.EducationEditKeepsLogo | server/index.js:218-235 | The same for education entries and their logo. |
| EndToEnd.ProjectEditKeepsImage | server/index.js:259-276 | The same for projects and their image. |
| EndToEnd.DescriptionSurvivesResave | client/src/admin/ExperienceManager.jsx:37-61 | A description saved by the editor, listed, opened and saved again unchanged, is stored as the same list. |
| EndToEnd.ResaveTurnsNullIntoEmpty | client/src/admin/ExperienceManager.jsx:58 | Resaving an entry with a null location stores `""` there. |
| EndToEnd.SaveResolvesIffApplied | client/src/api.js:32-39 | A save resolves, and so closes the modal, exactly when the token verified and the statement ran. A save that throws left the database as it was. |
| EndToEnd.ClientLoginFailsAlike | client/src/api.js:13 | From the client, an unknown username and a wrong password throw the same `Invalid credentials`, and so does the 500 for a known username without a string password. |
| EndToEnd.ClientLoginSucceeds | client/src/api.js:7-15 | A successful login returns a 24-hour token for that admin. |
| EndToEnd.AddedProjectIsStored | client/src/admin/ProjectsManager.jsx:24-45 | `+ Add`, fill in and save with a verified token always adds a row. The new id is above every earlier id, and the row holds the form's title and the current second. |
| EndToEnd.StoredFileUrl | client/src/api.js:114-118 | With the intended `BASE_URL`, an uploaded file's stored path becomes a URL on the API's origin. |

## Left out

- File storage: multer's disk storage and its `Date.now()`-plus-random file names (server/index.js:30-39) are an input. The stored name is a parameter, and the model keeps only the `/uploads/<name>` reference. A replaced or deleted row's old file is never removed from disk, and the model has no disk.
- Token signing and password hashing: `jwt.verify` (with the secret and the current time) and `bcrypt.compareSync` are parameters. The token is its payload and lifetime, with no signature.
- Clock: `created_at` is the current second, passed in as a parameter.
- JSON: a description is held as the list it serializes. Stored description text that is not valid JSON makes the list route throw, and valid JSON that is not a list (`5`, `"x"`, `{}`) is returned as it is; both can only come from a client other than this one and are outside the model. `ParseBody` returns no input for such bodies, nor for bodies with list-valued text fields.
- Decimal.Parse: reads only runs of decimal digits, the only `:id` texts the client writes. The server binds the raw text to `WHERE id = ?`, and SQLite's numeric affinity on the integer `id` column would also match texts such as `+5`, ` 5` or `5.0` to row 5; those texts are not modelled.
- Browser form validation: the `required` inputs (client/src/admin/ExperienceManager.jsx:149,160, EducationManager.jsx:144,156, ProjectsManager.jsx:150,173) and the `type="url"` link input (ProjectsManager.jsx:168) keep the browser from submitting an empty required field or a malformed link. The editor model submits any form, so it covers more submissions than a browser lets through; no property depends on this.
- Auth.Login: the username is taken to be a string; a login body whose `username` is absent or not a string is not modelled.
- Tables.ListNewestFirst: the list routes answer in one fixed order, breaking same-second ties by the larger id. SQLite may order such ties either way, and that is all the query promises: the routes' contracts state only `IsListing`, and the tie-break is the corrected order of the first finding below.
- The login call's URL (`API_URL/auth/login`, client/src/api.js:8) is not modelled; only its status rule is.
- Repeated text field names are not modelled faithfully: multer would turn them into an array, while `Lookup` takes the first occurrence. The client never sends them. Files follow multer's single-file rule exactly.
- The `admin` table's schema, the default admin account and the seed rows (server/index.js:77-129). The model takes the admin rows as given. CORS, static serving of `/uploads`, body parsers and `app.listen`.
- Concurrency: requests are handled one at a time against a single database value.
- React rendering: the tables, the image previews, `useEffect` loading and `confirm`. `handleDelete` and the list reload are not modelled beyond the delete route and the reload flag of `Editor.AfterSave`.
- `localStorage` token storage, `Home.jsx` and `AdminDashboard.jsx` (login page and public page).
- Network failures of `fetch` itself are not modelled. Only the server's answers are.
- Tables.Insert: ids are unbounded; SQLite's failure once the 64-bit rowid reaches its maximum is not modelled.

## Findings

| source | as written | input that shows it | evidently intended | confidence | as-written member | corrected member |
|---|---|---|---|---|---|---|
| server/index.js:159 | `ORDER BY created_at DESC` on a one-second timestamp leaves rows created in the same second in no promised order | two creates in the same second: the older row may be listed first | a created row is listed first (newest first, ties broken by id; the list routes of this model use this order) | medium, not executed | Tables.TiedListingMayPutOlderFirst | Tables.CreatedRowListedFirst |
| client/src/api.js:3 | `VITE_API_URL?.replace('/api', '')` removes the first `/api` anywhere in the address | `https://api.example.com/api` gives `https:/.example.com/api` | remove the trailing `/api` to get the origin | high, not executed | Api.BaseUrlStripsHostName | Api.IntendedBaseUrlIsOrigin |

=== FILE: api.dfy ===
/** The admin client's API module: where requests go (`API_URL`), where
    uploaded files are served from (`BASE_URL`), how an image path becomes a
    URL, and when a call throws. Both addresses are fixed at build time from
    the bundler's environment. */
module Api {
  import opened Base
  import opened Strings
  import Decimal
  import Server

  /** `import.meta.env`: the build mode and the optional `VITE_API_URL`. */
  datatype BuildEnv = BuildEnv(mode: string, viteApiUrl: Option<string>)

  predicate IsDev(env: BuildEnv)
  {
    env.mode == "development"
  }

  const DevApiUrl: string := "http://localhost:3001/api"
  const ProdApiUrl: string := "/api"
  const DevBaseUrl: string := "http://localhost:3001"
  const ProdBaseUrl: string := ""

  /** `x || fallback` for a value that is a string or undefined: the value
      when it is a non-empty string. */
  function OrElse(x: Option<string>, fallback: string): (r: string)
    ensures x.Some? && x.value != "" ==> r == x.value
    ensures x.None? || x.value == "" ==> r == fallback
  {
    if x.Some? && x.value != "" then x.value else fallback
  }

  /** `API_URL`: the configured address when it is a non-empty string,
      otherwise the default for the build mode. */
  function ApiUrl(env: BuildEnv): (r: string)
    ensures env.viteApiUrl.Some? && env.viteApiUrl.value != "" ==> r == env.viteApiUrl.value
    ensures env.viteApiUrl.None? || env.viteApiUrl.value == "" ==>
              r == (if IsDev(env) then DevApiUrl else ProdApiUrl)
  {
    OrElse(env.viteApiUrl, if IsDev(env) then DevApiUrl else ProdApiUrl)
  }

  /** `VITE_API_URL?.replace('/api', '')`: undefined stays undefined, and a
      string loses its first `/api`, wherever that is. */
  function StripApi(configured: Option<string>): (r: Option<string>)
    ensures r.None? <==> configured.None?
    ensures configured.Some? && (forall j :: !OccursAt(configured.value, "/api", j)) ==> r == configured
    ensures forall i ::
              configured.Some? && OccursAt(configured.value, "/api", i)
              && (forall j :: 0 <= j < i ==> !OccursAt(configured.value, "/api", j))
              ==> r == Some(configured.value[..i] + configured.value[i + 4..])
  {
    match configured
    case None => None
    case Some(u) => Some(RemoveFirst(u, "/api"))
  }

  /** `BASE_URL` as the module computes it: the stripped configured address
      when that is a non-empty string, otherwise the default for the build
      mode. */
  function BaseUrl(env: BuildEnv): (r: string)
    ensures StripApi(env.viteApiUrl).Some? && StripApi(env.viteApiUrl).value != "" ==>
              r == StripApi(env.viteApiUrl).value
    ensures StripApi(env.viteApiUrl).None? || StripApi(env.viteApiUrl).value == "" ==>
              r == (if IsDev(env) then DevBaseUrl else ProdBaseUrl)
  {
    OrElse(StripApi(env.viteApiUrl), if IsDev(env) then DevBaseUrl else ProdBaseUrl)
  }

  /** Without a configured address, the two defaults agree: the API lives
      under `/api` of the origin that serves the uploads. */
  lemma DefaultsAgree(env: BuildEnv)
    requires env.viteApiUrl.None?
    ensures ApiUrl(env) == BaseUrl(env) + "/api"
  {
  }

  /** In `https://api.example.com/api` the first `/api` is the one that
      starts the host name, at index 7. */
  lemma FirstApiInHostName()
    ensures var u := "https://api.example.com/api";
            && OccursAt(u, "/api", 7)
            && (forall j :: 0 <= j < 7 ==> !OccursAt(u, "/api", j))
  {
    var u := "https://api.example.com/api";
    assert u[7..11] == "/api";
    forall j | 0 <= j < 7
      ensures !OccursAt(u, "/api", j)
    {
      assert u[j..j + 4][0] == u[j] && u[j..j + 4][1] == u[j + 1];
      if j == 0 { assert u[0] == 'h'; }
      else if j == 1 { assert u[1] == 't'; }
      else if j == 2 { assert u[2] == 't'; }
      else if j == 3 { assert u[3] == 'p'; }
      else if j == 4 { assert u[4] == 's'; }
      else if j == 5 { assert u[5] == ':'; }
      else { assert u[7] == '/'; }
    }
  }

  /** The configured address `https://api.example.com/api` loses the `/api`
      at the start of its host name rather than the path suffix, so
      `BASE_URL` is `https:/.example.com/api`. */
  lemma BaseUrlStripsHostName(mode: string)
    ensures BaseUrl(BuildEnv(mode, Some("https://api.example.com/api"))) == "https:/.example.com/api"
  {
    StripHostName();
  }

  /** Stripping `https://api.example.com/api` removes the `/api` at index 7. */
  lemma StripHostName()
    ensures StripApi(Some("https://api.example.com/api")) == Some("https:/.example.com/api")
  {
    var u := "https://api.example.com/api";
    FirstApiInHostName();
    assert u[..7] + u[11..] == "https:/.example.com/api";
  }

  /** The evident intent: drop a trailing `/api`, so that `BASE_URL` is the
      origin the API is mounted on. */
  function StripApiSuffix(configured: Option<string>): (r: Option<string>)
    ensures r.None? <==> configured.None?
    ensures configured.Some? ==> configured.value == r.value + "/api" || configured.value == r.value
  {
    match configured
    case None => None
    case Some(u) =>
      if |u| >= 4 && u[|u| - 4..] == "/api" then
        assert u == u[..|u| - 4] + "/api";
        Some(u[..|u| - 4])
      else Some(u)
  }

  function BaseUrlIntended(env: BuildEnv): string
  {
    OrElse(StripApiSuffix(env.viteApiUrl), if IsDev(env) then DevBaseUrl else ProdBaseUrl)
  }

  /** With the intended rule, whatever origin the API URL names (other than
      none at all), `API_URL` is `BASE_URL` followed by `/api`. */
  lemma IntendedBaseUrlIsOrigin(mode: string, origin: string)
    requires origin != ""
    ensures BaseUrlIntended(BuildEnv(mode, Some(origin + "/api"))) == origin
    ensures ApiUrl(BuildEnv(mode, Some(origin + "/api"))) == BaseUrlIntended(BuildEnv(mode, Some(origin + "/api"))) + "/api"
  {
    var u := origin + "/api";
    assert u[|u| - 4..] == "/api";
    assert u[..|u| - 4] == origin;
  }

  /** The prefix test of `getImageUrl`. */
  const Absolute: string := "http"

  /** `getImageUrl(path)` for a `BASE_URL` of `base`: nothing for a null or
      empty path, an absolute `http...` path as it is, and otherwise the
      path behind the base. */
  function GetImageUrl(base: string, path: Option<string>): (r: Option<string>)
    ensures r.None? <==> path.None? || path.value == ""
    ensures r.Some? ==> |path.value| <= |r.value| && r.value[|r.value| - |path.value|..] == path.value
    ensures r.Some? && StartsWith(path.value, Absolute) ==> r.value == path.value
    ensures r.Some? && !StartsWith(path.value, Absolute) ==> r.value == base + path.value
  {
    match path
    case None => None
    case Some(p) =>
      if p == "" then None
      else if StartsWith(p, Absolute) then Some(p)
      else
        var u := base + p;
        assert u[|u| - |p|..] == p;
        Some(u)
  }

  /** A prefix of a prefix is a prefix. */
  lemma StartsWithExtend(s: string, t: string, p: string)
    requires StartsWith(s, p)
    ensures StartsWith(s + t, p)
  {
    assert (s + t)[..|p|] == s[..|p|];
  }

  /** When the base is empty or itself absolute, turning an already-turned
      path into a URL changes nothing. */
  lemma GetImageUrlIdempotent(base: string, path: Option<string>)
    requires base == "" || StartsWith(base, Absolute)
    ensures GetImageUrl(base, GetImageUrl(base, path)) == GetImageUrl(base, path)
  {
    match path
    case None =>
    case Some(p) =>
      if p != "" && !StartsWith(p, Absolute) {
        if base == "" {
          assert base + p == p;
        } else {
          StartsWithExtend(base, p, Absolute);
        }
      }
  }

  /** The three resources and their path segment. */
  datatype Kind = ExperienceKind | EducationKind | ProjectsKind

  function Segment(k: Kind): string
  {
    match k
    case ExperienceKind => "experience"
    case EducationKind => "education"
    case ProjectsKind => "projects"
  }

  /** The path after `API_URL`: `/<kind>` for the collection (list and
      create) and `/<kind>/<id>` for one row (update and delete). */
  function Path(k: Kind, id: Option<nat>): string
  {
    "/" + Segment(k) + (if id.Some? then "/" + Decimal.Show(id.value) else "")
  }

  function CollectionUrl(apiUrl: string, k: Kind): (r: string)
    ensures r == apiUrl + Path(k, None)
  {
    apiUrl + "/" + Segment(k)
  }

  /** An item path is its collection path followed by `/<id>`. */
  lemma ItemPathExtendsCollectionPath(k: Kind, id: nat)
    ensures Path(k, Some(id)) == Path(k, None) + ("/" + Decimal.Show(id))
  {
  }

  /** Concatenation regroups, and the first part is a prefix. */
  lemma AppendThree(a: string, b: string, c: string)
    ensures a + (b + c) == (a + b) + c
    ensures ((a + b) + c)[..|a + b|] == a + b
  {
  }

  function ItemUrl(apiUrl: string, k: Kind, id: nat): (r: string)
    ensures r == apiUrl + Path(k, Some(id))
    ensures r[..|CollectionUrl(apiUrl, k)|] == CollectionUrl(apiUrl, k)
  {
    var tail := "/" + Decimal.Show(id);
    ItemPathExtendsCollectionPath(k, id);
    AppendThree(apiUrl, Path(k, None), tail);
    CollectionUrl(apiUrl, k) + tail
  }

  /** Which route the server's router picks for a path below `/api`: the
      collection route, or the item route with the `:id` text. */
  datatype Route = CollectionRoute(kind: Kind) | ItemRoute(kind: Kind, idText: string)

  function KindOf(segment: string): (r: Option<Kind>)
    ensures r.Some? ==> Segment(r.value) == segment
    ensures r.None? <==> forall k :: Segment(k) != segment
  {
    if segment == "experience" then Some(ExperienceKind)
    else if segment == "education" then Some(EducationKind)
    else if segment == "projects" then Some(ProjectsKind)
    else None
  }

  /** A path of two or three `/`-separated pieces is those pieces joined. */
  lemma SplitPieces(path: string)
    ensures var parts := Split(path, '/');
            && (|parts| == 2 && parts[0] == "" ==> path == "/" + parts[1])
            && (|parts| == 3 && parts[0] == "" ==> path == "/" + parts[1] + "/" + parts[2])
  {
    var parts := Split(path, '/');
    JoinSplit(path, '/');
    if |parts| == 2 && parts[0] == "" {
      assert parts[1..] == [parts[1]];
      assert path == "" + ['/'] + parts[1];
    } else if |parts| == 3 && parts[0] == "" {
      assert parts[1..][1..] == [parts[2]];
      assert Join(parts[1..], '/') == parts[1] + ['/'] + parts[2];
      assert path == "" + ['/'] + (parts[1] + ['/'] + parts[2]);
    }
  }

  /** Express's matching of a path below `/api` against the resource routes:
      `/<kind>` or `/<kind>/:id`, where `:id` is one non-empty segment. */
  function MatchRoute(path: string): (r: Option<Route>)
    ensures r.Some? && r.value.CollectionRoute? ==> path == "/" + Segment(r.value.kind)
    ensures r.Some? && r.value.ItemRoute? ==>
              && r.value.idText != "" && '/' !in r.value.idText
              && path == "/" + Segment(r.value.kind) + "/" + r.value.idText
  {
    SplitPieces(path);
    var parts := Split(path, '/');
    if |parts| == 2 && parts[0] == "" && KindOf(parts[1]).Some? then
      Some(CollectionRoute(KindOf(parts[1]).value))
    else if |parts| == 3 && parts[0] == "" && KindOf(parts[1]).Some? && parts[2] != "" then
      Some(ItemRoute(KindOf(parts[1]).value, parts[2]))
    else None
  }

  lemma SegmentHasNoSlash(k: Kind)
    ensures Segment(k) != "" && '/' !in Segment(k)
  {
  }

  lemma ShowHasNoSlash(n: nat)
    ensures '/' !in Decimal.Show(n)
  {
    var digits := Decimal.Show(n);
    forall i | 0 <= i < |digits|
      ensures digits[i] != '/'
    {
      assert Decimal.IsDigit(digits[i]);
    }
  }

  /** The server routes the collection URL of each kind to its collection
      route. */
  lemma {:induction false} CollectionPathRoutes(k: Kind)
    ensures MatchRoute(Path(k, None)) == Some(CollectionRoute(k))
  {
    var seg := Segment(k);
    SegmentHasNoSlash(k);
    SplitWithoutSeparator(seg, '/');
    assert Path(k, None) == [] + ['/'] + seg;
    SplitAtFirstSeparator([], '/', seg);
  }

  lemma KindOfSegment(k: Kind)
    ensures KindOf(Segment(k)) == Some(k)
  {
  }

  /** An item path splits at `/` into an empty piece, the kind's segment
      and the id's digits. */
  lemma {:induction false} ItemPathSplits(k: Kind, id: nat)
    ensures Split(Path(k, Some(id)), '/') == [[], Segment(k), Decimal.Show(id)]
  {
    var seg := Segment(k);
    var digits := Decimal.Show(id);
    SegmentHasNoSlash(k);
    ShowHasNoSlash(id);
    SplitWithoutSeparator(digits, '/');
    SplitAtFirstSeparator(seg, '/', digits);
    assert Path(k, Some(id)) == [] + ['/'] + (seg + ['/'] + digits);
    SplitAtFirstSeparator([], '/', seg + ['/'] + digits);
  }

  /** The server routes an item URL to the item route of its kind, and the
      `:id` text it hands to SQLite reads back as the client's id. */
  lemma {:induction false} ItemPathRoutes(k: Kind, id: nat)
    ensures MatchRoute(Path(k, Some(id))) == Some(ItemRoute(k, Decimal.Show(id)))
    ensures Decimal.Parse(Decimal.Show(id)) == Some(id)
  {
    ItemPathSplits(k, id);
    KindOfSegment(k);
    Decimal.ParseShow(id);
  }

  /** What a call made with `fetch` then `res.json()` comes back with: the
      parsed body, or a thrown error. */
  datatype CallResult = Returned(body: Server.Response) | Thrown(message: string)

  predicate Ok(status: int)
  {
    200 <= status <= 299
  }

  const InvalidCredentials: string := "Invalid credentials"

  /** `api.login`: any status outside 200-299 throws `Invalid credentials`,
      whatever the server said; otherwise the parsed body. */
  function ClientLogin(response: Server.Response): (r: CallResult)
    ensures r.Thrown? <==> !Ok(Server.StatusCode(response))
    ensures r.Thrown? ==> r.message == InvalidCredentials
    ensures r.Returned? ==> r.body == response
  {
    if !Ok(Server.StatusCode(response)) then Thrown(InvalidCredentials) else Returned(response)
  }

  /** Every other call returns `res.json()` without looking at the status:
      it throws exactly when the body is not JSON. */
  function ClientCall(response: Server.Response): (r: CallResult)
    ensures r.Thrown? <==> !Server.HasJsonBody(response)
    ensures r.Returned? ==> r.body == response
  {
    if Server.HasJsonBody(response) then Returned(response) else Thrown("Unexpected token")
  }
}

=== FILE: auth.dfy ===
/** The server's access control: the `authenticateToken` middleware that
    guards every mutating route, and the login route that issues tokens.
    Token signatures and password hashes are not modelled: verifying a token
    (`jwt.verify` with the server's secret and the current time) and comparing
    a password with its bcrypt hash are parameters of the operations. */
module Auth {
  import opened Base
  import opened Strings

  /** The payload a session token carries. */
  datatype Claims = Claims(id: nat, username: string)

  /** A token as `jwt.sign` issues it: its payload and its lifetime. */
  datatype SessionToken = SessionToken(claims: Claims, lifetimeSeconds: nat)

  /** `expiresIn: '24h'`. */
  const TokenLifetimeSeconds: nat := 24 * 60 * 60

  /** What the middleware does with a request: answer 401, answer 403, or
      pass it on to the route handler with the verified payload. */
  datatype AuthOutcome = Unauthorized | Forbidden | Authorized(user: Claims)

  /** The `token` variable when it is truthy: the second space-separated
      segment of the `Authorization` header. The first segment (normally
      `Bearer`) is never looked at. */
  function BearerToken(header: Option<string>): (r: Option<string>)
    ensures header.None? ==> r.None?
    ensures r.Some? ==> r.value != "" && ' ' !in r.value
  {
    if header.None? || header.value == "" then None
    else
      var parts := Split(header.value, ' ');
      if |parts| < 2 || parts[1] == "" then None else Some(parts[1])
  }

  /** `authenticateToken`: no token gives 401, a token that fails
      verification gives 403, and only a verified token reaches the route. */
  function Classify(header: Option<string>, verify: string -> Option<Claims>): (r: AuthOutcome)
    ensures r.Unauthorized? <==> BearerToken(header).None?
    ensures r.Forbidden? <==> BearerToken(header).Some? && verify(BearerToken(header).value).None?
    ensures r.Authorized? <==> BearerToken(header).Some? && verify(BearerToken(header).value).Some?
    ensures r.Authorized? ==> r.user == verify(BearerToken(header).value).value
  {
    match BearerToken(header)
    case None => Unauthorized
    case Some(token) =>
      match verify(token)
      case None => Forbidden
      case Some(user) => Authorized(user)
  }

  /** The token is the text between the first space and the next space (or
      the end of the header). */
  lemma TokenIsSecondSegment(word: string, token: string, tail: string)
    requires ' ' !in word && ' ' !in token && token != ""
    requires tail == "" || tail[0] == ' '
    ensures BearerToken(Some(word + " " + token + tail)) == Some(token)
  {
    var h := word + " " + token + tail;
    assert h == word + [' '] + (token + tail);
    SplitAtFirstSeparator(word, ' ', token + tail);
    if tail == "" {
      assert token + tail == token;
      SplitWithoutSeparator(token, ' ');
    } else {
      assert token + tail == token + [' '] + tail[1..];
      SplitAtFirstSeparator(token, ' ', tail[1..]);
    }
  }

  /** Whatever the first word is (`Bearer`, `Basic`, anything without a
      space), the middleware decides the same way. */
  lemma FirstWordIgnored(w1: string, w2: string, rest: string, verify: string -> Option<Claims>)
    requires ' ' !in w1 && ' ' !in w2
    ensures Classify(Some(w1 + " " + rest), verify) == Classify(Some(w2 + " " + rest), verify)
  {
    assert w1 + " " + rest == w1 + [' '] + rest;
    assert w2 + " " + rest == w2 + [' '] + rest;
    SplitAtFirstSeparator(w1, ' ', rest);
    SplitAtFirstSeparator(w2, ' ', rest);
  }

  /** A header without a space carries no token, so it is answered 401 before
      any verification. */
  lemma SingleWordHeaderUnauthorized(word: string, verify: string -> Option<Claims>)
    requires word != "" && ' ' !in word
    ensures Classify(Some(word), verify) == Unauthorized
  {
    SplitWithoutSeparator(word, ' ');
  }

  /** A header whose second segment is empty (`"Bearer "`, or two spaces
      after the first word) carries no token: `split(' ')[1]` is `""`, which
      is falsy, so the answer is 401. So is an empty header. */
  lemma EmptySecondSegmentUnauthorized(word: string, rest: string, verify: string -> Option<Claims>)
    requires ' ' !in word
    requires rest == "" || rest[0] == ' '
    ensures Classify(Some(word + " " + rest), verify) == Unauthorized
    ensures Classify(Some(""), verify) == Unauthorized
  {
    assert word + " " + rest == word + [' '] + rest;
    SplitAtFirstSeparator(word, ' ', rest);
    if rest == "" {
      SplitWithoutSeparator(rest, ' ');
    } else {
      assert rest == [] + [' '] + rest[1..];
      SplitAtFirstSeparator([], ' ', rest[1..]);
    }
  }

  /** A row of the `admin` table. */
  datatype Admin = Admin(id: nat, username: string, passwordHash: string)

  /** `SELECT * FROM admin WHERE username = ?` with `.get()`: the first
      matching row. */
  function FindAdmin(admins: seq<Admin>, username: string): (r: Option<Admin>)
    ensures r.Some? ==> r.value in admins && r.value.username == username
    ensures r.None? <==> forall i :: 0 <= i < |admins| ==> admins[i].username != username
    decreases |admins|
  {
    if |admins| == 0 then None
    else if admins[0].username == username then Some(admins[0])
    else FindAdmin(admins[1..], username)
  }

  /** The answer of `POST /api/auth/login`: 401 with
      `{error: 'Invalid credentials'}`, a token and the username, or an
      uncaught throw. */
  datatype LoginOutcome = InvalidCredentials | LoggedIn(token: SessionToken, username: string) | LoginThrew

  const InvalidCredentialsMessage: string := "Invalid credentials"

  /** The login route. `password` is `None` when the JSON body's `password`
      is absent or not a string. `passwordMatches(password, hash)` stands for
      `bcrypt.compareSync`, which throws on a password that is not a string;
      it is only reached once the username is found. */
  function Login(admins: seq<Admin>, username: string, password: Option<string>,
                 passwordMatches: (string, string) -> bool): (r: LoginOutcome)
    ensures r.LoginThrew? <==> FindAdmin(admins, username).Some? && password.None?
    ensures r.LoggedIn? <==>
              && FindAdmin(admins, username).Some?
              && password.Some?
              && passwordMatches(password.value, FindAdmin(admins, username).value.passwordHash)
    ensures r.LoggedIn? ==>
              var admin := FindAdmin(admins, username).value;
              && r.token == SessionToken(Claims(admin.id, admin.username), TokenLifetimeSeconds)
              && r.username == username
  {
    match FindAdmin(admins, username)
    case None => InvalidCredentials
    case Some(admin) =>
      match password
      case None => LoginThrew
      case Some(p) =>
        if !passwordMatches(p, admin.passwordHash) then InvalidCredentials
        else LoggedIn(SessionToken(Claims(admin.id, admin.username), TokenLifetimeSeconds), admin.username)
  }

  /** An unknown username and a wrong (string) password get the identical
      answer. */
  lemma LoginFailsAlike(admins: seq<Admin>, unknown: string, known: string, wrong: string, any: Option<string>,
                        passwordMatches: (string, string) -> bool)
    requires forall i :: 0 <= i < |admins| ==> admins[i].username != unknown
    requires FindAdmin(admins, known).Some?
    requires !passwordMatches(wrong, FindAdmin(admins, known).value.passwordHash)
    ensures Login(admins, unknown, any, passwordMatches) == Login(admins, known, Some(wrong), passwordMatches)
    ensures Login(admins, unknown, any, passwordMatches) == InvalidCredentials
  {
  }

  /** A body without a string password tells the usernames apart: an unknown
      one is refused with 401, a known one makes `compareSync` throw. */
  lemma MissingPasswordRevealsUsername(admins: seq<Admin>, unknown: string, known: string,
                                       passwordMatches: (string, string) -> bool)
    requires forall i :: 0 <= i < |admins| ==> admins[i].username != unknown
    requires FindAdmin(admins, known).Some?
    ensures Login(admins, unknown, None, passwordMatches) == InvalidCredentials
    ensures Login(admins, known, None, passwordMatches) == LoginThrew
  {
  }
}

=== FILE: base.dfy ===
/** Failure-carrying values shared by every layer of the model: `Option` for
    JavaScript's null/undefined and `Result` for an operation that throws. */
module Base {

  /** A value that may be absent (`null` or `undefined` in the source). */
  datatype Option<+T> = None | Some(value: T)

  /** The outcome of an operation that either returns a value or throws. */
  datatype Result<+R, +E> = Success(value: R) | Failure(error: E)
}

=== FILE: decimal.dfy ===
/** Decimal text for row ids. The client writes an id into a URL with a
    template literal (`${id}`), and the server hands the `:id` path segment to
    SQLite, whose INTEGER affinity turns a well-formed decimal text back into
    the integer it compares against the `id` column. */
module Decimal {
  import opened Base

  predicate IsDigit(c: char)
  {
    '0' <= c <= '9'
  }

  predicate AllDigits(s: string)
  {
    forall i :: 0 <= i < |s| ==> IsDigit(s[i])
  }

  function DigitChar(d: nat): (c: char)
    requires d < 10
    ensures IsDigit(c)
  {
    (48 + d) as char
  }

  function DigitValue(c: char): (d: nat)
    requires IsDigit(c)
    ensures d < 10
  {
    c as int - 48
  }

  /** `${n}` for a non-negative integer: its shortest decimal form. */
  function Show(n: nat): (r: string)
    ensures |r| >= 1 && AllDigits(r)
    ensures |r| > 1 ==> r[0] != '0'
    decreases n
  {
    if n < 10 then [DigitChar(n)] else Show(n / 10) + [DigitChar(n % 10)]
  }

  /** The number a string of digits denotes (leading zeros allowed). */
  function Value(s: string): nat
    requires AllDigits(s)
    decreases |s|
  {
    if |s| == 0 then 0 else Value(s[..|s| - 1]) * 10 + DigitValue(s[|s| - 1])
  }

  /** The integer a route parameter denotes when it is a non-empty run of
      decimal digits, the only form the client writes. Other texts are not
      read as ids here (SQLite's affinity would also convert some of them,
      such as `+5` or `5.0`). */
  function Parse(s: string): (r: Option<nat>)
    ensures r.Some? <==> |s| > 0 && AllDigits(s)
  {
    if |s| > 0 && AllDigits(s) then Some(Value(s)) else None
  }

  /** Reading back the decimal form of an id gives the id. */
  lemma {:induction false} ParseShow(n: nat)
    ensures Parse(Show(n)) == Some(n)
    decreases n
  {
    var s := Show(n);
    if n < 10 {
      assert s[..0] == [];
      assert Value(s) == Value(s[..0]) * 10 + DigitValue(s[0]);
    } else {
      ParseShow(n / 10);
      var prefix := Show(n / 10);
      assert s[..|s| - 1] == prefix;
      assert DigitValue(s[|s| - 1]) == n % 10;
      assert Value(s) == Value(prefix) * 10 + n % 10;
    }
  }

  /** Distinct ids have distinct decimal forms. */
  lemma ShowInjective(m: nat, n: nat)
    requires Show(m) == Show(n)
    ensures m == n
  {
    ParseShow(m);
    ParseShow(n);
  }
}

=== FILE: description.dfy ===
/** The experience editor's description codec. The textarea holds one bullet
    point per line; on submit the text is split on line feeds and the lines
    that trim to nothing are dropped (the kept lines are not trimmed). To edit
    an entry again, the stored list is joined back with line feeds. */
module DescriptionCodec {
  import opened Base
  import opened Strings

  /** `line => line.trim()` used as a filter: a line is kept when its trim is
      a non-empty (truthy) string. */
  predicate Kept(line: string)
  {
    Trim(line) != ""
  }

  /** `lines.filter(line => line.trim())`. */
  function KeepNonBlank(lines: seq<string>): (r: seq<string>)
    ensures |r| <= |lines|
    ensures forall i :: 0 <= i < |r| ==> Kept(r[i])
    decreases |lines|
  {
    if |lines| == 0 then []
    else if Kept(lines[0]) then [lines[0]] + KeepNonBlank(lines[1..])
    else KeepNonBlank(lines[1..])
  }

  /** Filtering distributes over concatenation: together with the one-line
      case this pins the filter down as "the kept lines, in their order". */
  lemma {:induction false} KeepNonBlankAppend(a: seq<string>, b: seq<string>)
    ensures KeepNonBlank(a + b) == KeepNonBlank(a) + KeepNonBlank(b)
    decreases |a|
  {
    if |a| == 0 {
      assert a + b == b;
    } else {
      assert (a + b)[0] == a[0];
      assert (a + b)[1..] == a[1..] + b;
      KeepNonBlankAppend(a[1..], b);
    }
  }

  /** One line is kept exactly when it is not blank. */
  lemma KeepNonBlankSingle(line: string)
    ensures KeepNonBlank([line]) == (if Blank(line) then [] else [line])
  {
    TrimEmptyIffBlank(line);
    assert [line][1..] == [];
  }

  /** A line survives the filter exactly when it was there and is kept. */
  lemma {:induction false} KeptMembers(lines: seq<string>, line: string)
    ensures line in KeepNonBlank(lines) <==> line in lines && Kept(line)
    decreases |lines|
  {
    if |lines| > 0 {
      var rest := KeepNonBlank(lines[1..]);
      KeptMembers(lines[1..], line);
      assert line in lines <==> line == lines[0] || line in lines[1..] by {
        assert lines == [lines[0]] + lines[1..];
      }
      if Kept(lines[0]) {
        assert KeepNonBlank(lines) == [lines[0]] + rest;
      } else {
        assert KeepNonBlank(lines) == rest;
      }
    }
  }

  /** A line survives the filter exactly when it was there and is not blank. */
  lemma KeepNonBlankMembers(lines: seq<string>, line: string)
    ensures line in KeepNonBlank(lines) <==> line in lines && !Blank(line)
  {
    KeptMembers(lines, line);
    TrimEmptyIffBlank(line);
  }

  /** A list of non-blank lines passes the filter unchanged. */
  lemma {:induction false} KeepNonBlankKeepsAll(lines: seq<string>)
    requires forall i :: 0 <= i < |lines| ==> !Blank(lines[i])
    ensures KeepNonBlank(lines) == lines
    decreases |lines|
  {
    if |lines| > 0 {
      TrimEmptyIffBlank(lines[0]);
      KeepNonBlankKeepsAll(lines[1..]);
    }
  }

  /** The list the form submits for a textarea text: every element is one
      line of the text, and none is blank. */
  function Encode(text: string): (r: seq<string>)
    ensures forall i :: 0 <= i < |r| ==> '\n' !in r[i] && !Blank(r[i])
  {
    var lines := Split(text, '\n');
    var r := KeepNonBlank(lines);
    forall i | 0 <= i < |r|
      ensures '\n' !in r[i] && !Blank(r[i])
    {
      TrimEmptyIffBlank(r[i]);
      KeepNonBlankMembers(lines, r[i]);
    }
    r
  }

  /** The encoded list is the text's lines with the blank ones dropped: a
      line is in it exactly when it is a line of the text and not blank. */
  lemma EncodeMembers(text: string, line: string)
    ensures line in Encode(text) <==> line in Split(text, '\n') && !Blank(line)
  {
    KeepNonBlankMembers(Split(text, '\n'), line);
  }

  /** What the textarea is pre-filled with: `Array.isArray(d) ? d.join('\n') : ''`,
      where `None` stands for a description that is not an array. A
      non-empty list of line-free items can be read back off the text. */
  function EditText(d: Option<seq<string>>): (r: string)
    ensures d.None? ==> r == ""
    ensures d.Some? && |d.value| >= 1 && (forall i :: 0 <= i < |d.value| ==> '\n' !in d.value[i])
            ==> Split(r, '\n') == d.value
  {
    match d
    case None => ""
    case Some(items) =>
      if |items| >= 1 && (forall i :: 0 <= i < |items| ==> '\n' !in items[i]) then
        SplitJoin(items, '\n');
        Join(items, '\n')
      else Join(items, '\n')
  }

  /** Joining a list of line-free, non-blank items and encoding the text
      gives the list back (the empty list included, since `''` is one blank
      line). */
  lemma EncodeJoin(items: seq<string>)
    requires forall i :: 0 <= i < |items| ==> '\n' !in items[i] && !Blank(items[i])
    ensures Encode(Join(items, '\n')) == items
  {
    if |items| == 0 {
      assert Split("", '\n') == [""];
      KeepNonBlankSingle("");
    } else {
      SplitJoin(items, '\n');
      KeepNonBlankKeepsAll(items);
    }
  }

  /** Saving a text, opening it for editing and saving it again without
      changes stores the same list. */
  lemma EncodeIdempotent(text: string)
    ensures Encode(EditText(Some(Encode(text)))) == Encode(text)
  {
    EncodeJoin(Encode(text));
  }
}

=== FILE: editor.dfy ===
/** The modal editor the three admin managers share: whether the modal is
    open, the id of the row being edited (null when adding), the form fields,
    and the chosen file. The managers differ only in their form record; the
    transitions are the same, so they are written once over the form type. */
module Editor {
  import opened Base
  import opened Multipart

  datatype Editor<F> = Editor(open: bool, editingId: Option<nat>, form: F, file: Option<ClientFile>)

  /** The state on mount and after `closeModal`: closed, no id, the empty
      form, no file. */
  function Closed<F>(empty: F): (s: Editor<F>)
    ensures !s.open && s.editingId.None? && s.form == empty && s.file.None?
  {
    Editor(false, None, empty, None)
  }

  /** Whenever the modal is closed, nothing of a previous edit lingers. */
  ghost predicate Settled<F>(s: Editor<F>, empty: F)
  {
    !s.open ==> s == Closed(empty)
  }

  /** The `+ Add` button: only opens the modal. */
  function OpenAdd<F>(s: Editor<F>): (r: Editor<F>)
    ensures r.open && r.editingId == s.editingId && r.form == s.form && r.file == s.file
  {
    s.(open := true)
  }

  /** `handleEdit`: remembers the row's id, pre-fills the form and opens the
      modal. The chosen file is not touched. */
  function Edit<F>(s: Editor<F>, id: nat, prefilled: F): (r: Editor<F>)
    ensures r.open && r.editingId == Some(id) && r.form == prefilled && r.file == s.file
  {
    Editor(true, Some(id), prefilled, s.file)
  }

  /** Typing into the form; the inputs exist only while the modal is open. */
  function Type<F>(s: Editor<F>, form: F): (r: Editor<F>)
    ensures s.open ==> r == s.(form := form)
    ensures !s.open ==> r == s
  {
    if s.open then s.(form := form) else s
  }

  /** The file input's `onChange`: `files[0]`, which is undefined when the
      selection is cancelled. */
  function Choose<F>(s: Editor<F>, file: Option<ClientFile>): (r: Editor<F>)
    ensures s.open ==> r == s.(file := file)
    ensures !s.open ==> r == s
  {
    if s.open then s.(file := file) else s
  }

  /** `closeModal`, from whatever state. */
  function CloseModal<F>(s: Editor<F>, empty: F): (r: Editor<F>)
    ensures !r.open && r.editingId.None? && r.form == empty && r.file.None?
  {
    Closed(empty)
  }

  /** `value || ''` for a column that may be null: how `handleEdit` puts a
      nullable column into a text input. */
  function OrEmpty(value: Option<string>): (r: string)
    ensures value.Some? ==> r == value.value
    ensures value.None? ==> r == ""
  {
    if value.Some? then value.value else ""
  }

  /** `if (editingId)`: a number is truthy unless it is 0. */
  predicate Truthy(id: Option<nat>)
  {
    id.Some? && id.value != 0
  }

  /** Which API call `handleSubmit` makes. */
  datatype Target = CreateTarget | UpdateTarget(id: nat)

  function Dispatch<F>(s: Editor<F>): (r: Target)
    ensures r.UpdateTarget? <==> Truthy(s.editingId)
    ensures r.UpdateTarget? ==> r.id == s.editingId.value
  {
    if Truthy(s.editingId) then UpdateTarget(s.editingId.value) else CreateTarget
  }

  /** The call `handleSubmit` makes, with the body it packaged. */
  datatype Call = CreateCall(entries: seq<FormEntry>) | UpdateCall(id: nat, entries: seq<FormEntry>)

  function Submit<F>(s: Editor<F>, entries: seq<FormEntry>): (r: Call)
    ensures r.UpdateCall? <==> Truthy(s.editingId)
    ensures r.UpdateCall? ==> r.id == s.editingId.value
    ensures r.entries == entries
  {
    match Dispatch(s)
    case CreateTarget => CreateCall(entries)
    case UpdateTarget(id) => UpdateCall(id, entries)
  }

  /** The rest of `handleSubmit` once the call settles: a call that resolved
      closes the modal and reloads the list; one that threw is only logged,
      and the state stays as it was. */
  function AfterSave<F>(s: Editor<F>, empty: F, resolved: bool): (r: (Editor<F>, bool))
    ensures resolved ==> r.0 == Closed(empty) && r.1
    ensures !resolved ==> r.0 == s && !r.1
  {
    if resolved then (CloseModal(s, empty), true) else (s, false)
  }

  /** The user's actions on one manager's modal. */
  datatype Action<F> =
    | AddClicked
    | EditClicked(id: nat, prefilled: F)
    | Typed(form: F)
    | FileChosen(file: Option<ClientFile>)
    | CloseClicked
    | SaveSettled(resolved: bool)

  function Step<F>(s: Editor<F>, empty: F, a: Action<F>): Editor<F>
  {
    match a
    case AddClicked => OpenAdd(s)
    case EditClicked(id, prefilled) => Edit(s, id, prefilled)
    case Typed(form) => Type(s, form)
    case FileChosen(file) => Choose(s, file)
    case CloseClicked => CloseModal(s, empty)
    case SaveSettled(resolved) => AfterSave(s, empty, resolved).0
  }

  /** Every single action keeps the closed modal clean. */
  lemma StepSettled<F>(s: Editor<F>, empty: F, a: Action<F>)
    requires Settled(s, empty)
    ensures Settled(Step(s, empty, a), empty)
  {
  }

  function Run<F>(s: Editor<F>, empty: F, actions: seq<Action<F>>): (r: Editor<F>)
    decreases |actions|
  {
    if |actions| == 0 then s else Run(Step(s, empty, actions[0]), empty, actions[1..])
  }

  /** From the state on mount, any sequence of actions keeps the closed
      modal clean. */
  lemma {:induction false} RunSettled<F>(s: Editor<F>, empty: F, actions: seq<Action<F>>)
    requires Settled(s, empty)
    ensures Settled(Run(s, empty, actions), empty)
    decreases |actions|
  {
    if |actions| > 0 {
      StepSettled(s, empty, actions[0]);
      RunSettled(Step(s, empty, actions[0]), empty, actions[1..]);
    }
  }

  /** Filling in the form: typing and choosing files, nothing else. */
  predicate Filling<F>(actions: seq<Action<F>>)
  {
    forall i :: 0 <= i < |actions| ==> actions[i].Typed? || actions[i].FileChosen?
  }

  /** Filling in the form never changes which row is being edited, nor
      whether the modal is open. */
  lemma {:induction false} FillingKeepsId<F>(s: Editor<F>, empty: F, actions: seq<Action<F>>)
    requires Filling(actions)
    ensures Run(s, empty, actions).editingId == s.editingId
    ensures Run(s, empty, actions).open == s.open
    decreases |actions|
  {
    if |actions| > 0 {
      FillingKeepsId(Step(s, empty, actions[0]), empty, actions[1..]);
    }
  }

  /** Typing only: no file is chosen. */
  predicate Typing<F>(actions: seq<Action<F>>)
  {
    forall i :: 0 <= i < |actions| ==> actions[i].Typed?
  }

  /** Typing never changes the chosen file, the id being edited, or whether
      the modal is open. */
  lemma {:induction false} TypingKeepsFile<F>(s: Editor<F>, empty: F, actions: seq<Action<F>>)
    requires Typing(actions)
    ensures Run(s, empty, actions).file == s.file
    ensures Run(s, empty, actions).editingId == s.editingId
    ensures Run(s, empty, actions).open == s.open
    decreases |actions|
  {
    if |actions| > 0 {
      TypingKeepsFile(Step(s, empty, actions[0]), empty, actions[1..]);
    }
  }

  /** Opening the modal with `+ Add` from a closed, clean state and filling in
      the form always submits a create. */
  lemma AddLeadsToCreate<F>(s: Editor<F>, empty: F, actions: seq<Action<F>>, entries: seq<FormEntry>)
    requires Settled(s, empty) && !s.open
    requires Filling(actions)
    ensures Submit(Run(OpenAdd(s), empty, actions), entries) == CreateCall(entries)
  {
    FillingKeepsId(OpenAdd(s), empty, actions);
  }

  /** Opening a row with an id of 1 or more and filling in the form submits
      an update of that row. */
  lemma EditLeadsToUpdate<F>(s: Editor<F>, empty: F, id: nat, prefilled: F,
                             actions: seq<Action<F>>, entries: seq<FormEntry>)
    requires id >= 1
    requires Filling(actions)
    ensures Submit(Run(Edit(s, id, prefilled), empty, actions), entries) == UpdateCall(id, entries)
  {
    FillingKeepsId(Edit(s, id, prefilled), empty, actions);
  }
}

=== FILE: education.dfy ===
/** The `/api/education` routes over the `education` table. `degree` and
    `institution` are NOT NULL; `logo`, `location` and `year` may be null. */
module EducationRoutes {
  import opened Base
  import opened Tables
  import opened Multipart
  import Uploads

  /** The columns of an `education` row other than `id` and `created_at`. */
  datatype Education = Education(
    logo: Option<string>,
    degree: string,
    institution: string,
    location: Option<string>,
    year: Option<string>)

  /** The text fields of a create or update request; `None` is an absent
      field, which binds as SQL null. */
  datatype EducationInput = EducationInput(
    degree: Option<string>,
    institution: Option<string>,
    location: Option<string>,
    year: Option<string>)

  const FileField: string := "logo"
  const AddedMessage: string := "Education added successfully"
  const UpdatedMessage: string := "Education updated successfully"
  const DeletedMessage: string := "Education deleted successfully"

  /** The NOT NULL constraints of the `education` table: only null is
      refused, the empty string is accepted. */
  predicate SatisfiesNotNull(input: EducationInput)
  {
    input.degree.Some? && input.institution.Some?
  }

  /** `req.body` as the typed input; `None` when a field holds a list, which
      the admin client never sends for these columns. */
  function ParseBody(entries: seq<FormEntry>): (r: Option<EducationInput>)
    ensures r.None? <==>
              || BodyField(entries, "degree").Lines?
              || BodyField(entries, "institution").Lines?
              || BodyField(entries, "location").Lines?
              || BodyField(entries, "year").Lines?
    ensures r.Some? ==>
              && r.value.degree == TextOf(BodyField(entries, "degree"))
              && r.value.institution == TextOf(BodyField(entries, "institution"))
              && r.value.location == TextOf(BodyField(entries, "location"))
              && r.value.year == TextOf(BodyField(entries, "year"))
  {
    var degree := BodyField(entries, "degree");
    var institution := BodyField(entries, "institution");
    var location := BodyField(entries, "location");
    var year := BodyField(entries, "year");
    if degree.Lines? || institution.Lines? || location.Lines? || year.Lines? then None
    else Some(EducationInput(TextOf(degree), TextOf(institution), TextOf(location), TextOf(year)))
  }

  /** `POST /api/education`: inserts the request's fields and the uploaded
      logo's path (null without a file); a null degree or institution makes
      the insert throw and leaves the table as it was. */
  function Create(t: Table<Education>, input: EducationInput, upload: Option<string>, now: int)
    : (r: Result<(Table<Education>, nat), DbError>)
    requires Valid(t)
    ensures r.Failure? <==> !SatisfiesNotNull(input)
    ensures r.Success? ==>
              var (t', id) := r.value;
              && Valid(t')
              && id > t.lastId
              && |t'.rows| == |t.rows| + 1
              && (forall k :: k != id ==> Find(t'.rows, k) == Find(t.rows, k))
              && Find(t'.rows, id) == Some(Row(id, now, Education(
                   Uploads.Ref(upload), input.degree.value, input.institution.value,
                   input.location, input.year)))
  {
    if !SatisfiesNotNull(input) then Failure(NotNullViolation)
    else
      Success(Tables.Insert(t, now, Education(
        Uploads.Ref(upload), input.degree.value, input.institution.value, input.location, input.year)))
  }

  /** The row's new columns under `UPDATE education SET degree = ?, ...`. */
  function Rewrite(stored: Education, degree: string, institution: string, input: EducationInput, upload: Option<string>)
    : Education
  {
    Education(if upload.Some? then Uploads.Ref(upload) else stored.logo,
              degree, institution, input.location, input.year)
  }

  /** `PUT /api/education/:id`: every text column from the request, the logo
      only when a file came; an unknown id changes nothing and succeeds. */
  function Update(t: Table<Education>, id: int, input: EducationInput, upload: Option<string>)
    : (r: Result<Table<Education>, DbError>)
    requires Valid(t)
    ensures Find(t.rows, id).None? ==> r == Success(t)
    ensures Find(t.rows, id).Some? ==> (r.Failure? <==> !SatisfiesNotNull(input))
    ensures r.Success? ==>
              && Valid(r.value)
              && r.value.lastId == t.lastId
              && |r.value.rows| == |t.rows|
              && (forall k :: k != id ==> Find(r.value.rows, k) == Find(t.rows, k))
    ensures r.Success? && Find(t.rows, id).Some? ==>
              var before := Find(t.rows, id).value;
              var after := Find(r.value.rows, id);
              && after.Some?
              && after.value.createdAt == before.createdAt
              && after.value.fields.degree == input.degree.value
              && after.value.fields.institution == input.institution.value
              && after.value.fields.location == input.location
              && after.value.fields.year == input.year
              && after.value.fields.logo == (if upload.Some? then Some(Uploads.Prefix + upload.value)
                                             else before.fields.logo)
  {
    if Find(t.rows, id).None? then Success(t)
    else if !SatisfiesNotNull(input) then Failure(NotNullViolation)
    else
      var degree := input.degree.value;
      var institution := input.institution.value;
      Success(Tables.Update(t, id, row => Rewrite(row, degree, institution, input, upload)))
  }

  /** `DELETE /api/education/:id`. */
  function Delete(t: Table<Education>, id: int): (r: Table<Education>)
    requires Valid(t)
    ensures Valid(r) && Find(r.rows, id).None?
    ensures forall k :: k != id ==> Find(r.rows, k) == Find(t.rows, k)
    ensures Find(t.rows, id).None? ==> r == t
  {
    Tables.Delete(t, id)
  }

  /** `GET /api/education`: the rows as stored, latest creation second first. */
  function List(t: Table<Education>): (r: seq<Row<Education>>)
    ensures IsListing(t.rows, r)
  {
    ListNewestFirst(t.rows)
  }
}

=== FILE: education_manager.dfy ===
/** The admin page for education entries: its form record, how a listed
    entry pre-fills the form, and the multipart body `handleSubmit` builds. */
module EducationManager {
  import opened Base
  import opened Multipart
  import opened Editor
  import opened Tables
  import R = EducationRoutes

  datatype EducationForm = EducationForm(degree: string, institution: string, location: string, year: string)

  const EmptyForm: EducationForm := EducationForm("", "", "", "")

  /** The modal's state on mount. */
  function Initial(): (s: Editor<EducationForm>)
    ensures Settled(s, EmptyForm) && !s.open
  {
    Closed(EmptyForm)
  }

  /** The form `handleEdit` fills in for a listed row. */
  function Prefill(row: Row<R.Education>): (f: EducationForm)
    ensures f.degree == row.fields.degree && f.institution == row.fields.institution
    ensures row.fields.location.None? ==> f.location == ""
    ensures row.fields.year.None? ==> f.year == ""
    ensures row.fields.location.Some? ==> f.location == row.fields.location.value
    ensures row.fields.year.Some? ==> f.year == row.fields.year.value
  {
    EducationForm(row.fields.degree, row.fields.institution, OrEmpty(row.fields.location), OrEmpty(row.fields.year))
  }

  /** `handleEdit(edu)`. */
  function HandleEdit(s: Editor<EducationForm>, row: Row<R.Education>): (r: Editor<EducationForm>)
    ensures r.open && r.editingId == Some(row.id) && r.form == Prefill(row) && r.file == s.file
  {
    Edit(s, row.id, Prefill(row))
  }

  /** `closeModal`: closed, no id, every input empty, no logo. */
  function HandleClose(s: Editor<EducationForm>): (r: Editor<EducationForm>)
    ensures !r.open && r.editingId.None? && r.file.None?
    ensures r.form.degree == "" && r.form.institution == "" && r.form.location == "" && r.form.year == ""
  {
    CloseModal(s, EmptyForm)
  }

  /** The entry names `handleSubmit` appends, in order. */
  const TextFields: seq<string> := ["degree", "institution", "location", "year"]

  /** The entries appended unconditionally. */
  function TextEntries(form: EducationForm): (r: seq<FormEntry>)
    ensures |r| == |TextFields|
  {
    [FormEntry("degree", Text(form.degree)),
     FormEntry("institution", Text(form.institution)),
     FormEntry("location", Text(form.location)),
     FormEntry("year", Text(form.year))]
  }

  lemma TextEntryNames(form: EducationForm)
    ensures Names(TextEntries(form)) == TextFields
  {
    var t := TextEntries(form);
    forall i | 0 <= i < |t|
      ensures Names(t)[i] == TextFields[i]
    {
    }
  }

  /** The `FormData` of `handleSubmit`: the four text inputs, and the logo
      only when one was chosen. */
  function Package(form: EducationForm, logo: Option<ClientFile>): (r: seq<FormEntry>)
    ensures Names(r) == TextFields + (if logo.Some? then [R.FileField] else [])
    ensures HasFile(r, R.FileField) <==> logo.Some?
    ensures logo.Some? ==> Lookup(r, R.FileField) == Some(Upload(logo.value))
    ensures AcceptsFiles(r, R.FileField)
  {
    TextEntryNames(form);
    AppendFile(TextEntries(form), R.FileField, logo);
    TextEntries(form) + FileEntries(R.FileField, logo)
  }

  /** `handleSubmit`: the call it makes and the body it sends. */
  function HandleSubmit(s: Editor<EducationForm>): (r: Call)
    ensures r.UpdateCall? <==> Truthy(s.editingId)
    ensures r.UpdateCall? ==> r.id == s.editingId.value
    ensures HasFile(r.entries, R.FileField) <==> s.file.Some?
    ensures r.entries == Package(s.form, s.file)
  {
    Submit(s, Package(s.form, s.file))
  }

  /** No two text inputs share a name. */
  lemma TextFieldsDistinct()
    ensures forall j, k :: 0 <= j < k < |TextFields| ==> TextFields[j] != TextFields[k]
  {
  }

  /** Each text input is found under its own name. */
  lemma PackageLookup(form: EducationForm, logo: Option<ClientFile>, i: nat)
    requires i < |TextFields|
    ensures Lookup(Package(form, logo), TextFields[i]) == Some(TextEntries(form)[i].value)
  {
    var r := Package(form, logo);
    assert r[i] == TextEntries(form)[i];
    TextFieldsDistinct();
    forall j | 0 <= j < i
      ensures r[j].name != r[i].name
    {
      assert r[j].name == Names(r)[j] == TextFields[j];
      assert r[i].name == Names(r)[i] == TextFields[i];
    }
    LookupFirst(r, i);
  }

  /** The server reads back exactly what the form held, every input as a
      string (empty ones included, so never null). */
  lemma PackageParses(form: EducationForm, logo: Option<ClientFile>)
    ensures R.ParseBody(Package(form, logo)) == Some(R.EducationInput(
              Some(form.degree), Some(form.institution), Some(form.location), Some(form.year)))
    ensures R.SatisfiesNotNull(R.ParseBody(Package(form, logo)).value)
  {
    var r := Package(form, logo);
    PackageLookup(form, logo, 0);
    PackageLookup(form, logo, 1);
    PackageLookup(form, logo, 2);
    PackageLookup(form, logo, 3);
    assert BodyField(r, "degree") == Str(form.degree);
    assert BodyField(r, "institution") == Str(form.institution);
    assert BodyField(r, "location") == Str(form.location);
    assert BodyField(r, "year") == Str(form.year);
  }
}

=== FILE: endtoend.dfy ===
/** The admin client and the server together: what a form submission turns
    into on the server, and what the user sees come back. */
module EndToEnd {
  import opened Base
  import opened Tables
  import opened Multipart
  import opened Editor
  import opened Server
  import Auth
  import Api
  import D = DescriptionCodec
  import E = ExperienceRoutes
  import Ed = EducationRoutes
  import P = ProjectRoutes
  import EM = ExperienceManager
  import EdM = EducationManager
  import PM = ProjectsManager
  import Uploads
  import Strings

  /** The request the server routes a call to the experience endpoints to.
      `stored` is the name multer gives the uploaded file, if the body has
      one; the `:id` of the URL reads back as the call's id (see
      `Api.ItemPathRoutes`). A body with a file multer does not take is
      refused before the route runs. */
  function ExperienceRequest(call: Call, stored: string): (r: Option<Request>)
    ensures !AcceptsFiles(call.entries, E.FileField) ==> r == Some(RejectedUpload)
    ensures AcceptsFiles(call.entries, E.FileField) ==> (r.Some? <==> E.ParseBody(call.entries).Some?)
    ensures r.Some? && !r.value.RejectedUpload? ==>
              && AcceptsFiles(call.entries, E.FileField)
              && TargetsExperience(r.value) && (r.value.CreateExperience? || r.value.UpdateExperience?)
    ensures r.Some? && !r.value.RejectedUpload? ==> (r.value.UpdateExperience? <==> call.UpdateCall?)
    ensures r.Some? && !r.value.RejectedUpload? ==> r.value.experience == E.ParseBody(call.entries).value
    ensures r.Some? && !r.value.RejectedUpload? ==>
              r.value.upload == (if HasFile(call.entries, E.FileField) then Some(stored) else None)
    ensures r.Some? && !r.value.RejectedUpload? && call.UpdateCall? ==> r.value.id == call.id
  {
    if !AcceptsFiles(call.entries, E.FileField) then Some(RejectedUpload)
    else
      match E.ParseBody(call.entries)
      case None => None
      case Some(input) =>
        var upload := if HasFile(call.entries, E.FileField) then Some(stored) else None;
        match call
        case CreateCall(_) => Some(CreateExperience(input, upload))
        case UpdateCall(id, _) => Some(UpdateExperience(id, input, upload))
  }

  /** The same for the education endpoints. */
  function EducationRequest(call: Call, stored: string): (r: Option<Request>)
    ensures !AcceptsFiles(call.entries, Ed.FileField) ==> r == Some(RejectedUpload)
    ensures AcceptsFiles(call.entries, Ed.FileField) ==> (r.Some? <==> Ed.ParseBody(call.entries).Some?)
    ensures r.Some? && !r.value.RejectedUpload? ==>
              && AcceptsFiles(call.entries, Ed.FileField)
              && TargetsEducation(r.value) && (r.value.CreateEducation? || r.value.UpdateEducation?)
    ensures r.Some? && !r.value.RejectedUpload? ==> (r.value.UpdateEducation? <==> call.UpdateCall?)
    ensures r.Some? && !r.value.RejectedUpload? ==> r.value.education == Ed.ParseBody(call.entries).value
    ensures r.Some? && !r.value.RejectedUpload? ==>
              r.value.upload == (if HasFile(call.entries, Ed.FileField) then Some(stored) else None)
    ensures r.Some? && !r.value.RejectedUpload? && call.UpdateCall? ==> r.value.id == call.id
  {
    if !AcceptsFiles(call.entries, Ed.FileField) then Some(RejectedUpload)
    else
      match Ed.ParseBody(call.entries)
      case None => None
      case Some(input) =>
        var upload := if HasFile(call.entries, Ed.FileField) then Some(stored) else None;
        match call
        case CreateCall(_) => Some(CreateEducation(input, upload))
        case UpdateCall(id, _) => Some(UpdateEducation(id, input, upload))
  }

  /** The same for the projects endpoints. */
  function ProjectRequest(call: Call, stored: string): (r: Option<Request>)
    ensures !AcceptsFiles(call.entries, P.FileField) ==> r == Some(RejectedUpload)
    ensures AcceptsFiles(call.entries, P.FileField) ==> (r.Some? <==> P.ParseBody(call.entries).Some?)
    ensures r.Some? && !r.value.RejectedUpload? ==>
              && AcceptsFiles(call.entries, P.FileField)
              && TargetsProjects(r.value) && (r.value.CreateProject? || r.value.UpdateProject?)
    ensures r.Some? && !r.value.RejectedUpload? ==> (r.value.UpdateProject? <==> call.UpdateCall?)
    ensures r.Some? && !r.value.RejectedUpload? ==> r.value.project == P.ParseBody(call.entries).value
    ensures r.Some? && !r.value.RejectedUpload? ==>
              r.value.upload == (if HasFile(call.entries, P.FileField) then Some(stored) else None)
    ensures r.Some? && !r.value.RejectedUpload? && call.UpdateCall? ==> r.value.id == call.id
  {
    if !AcceptsFiles(call.entries, P.FileField) then Some(RejectedUpload)
    else
      match P.ParseBody(call.entries)
      case None => None
      case Some(input) =>
        var upload := if HasFile(call.entries, P.FileField) then Some(stored) else None;
        match call
        case CreateCall(_) => Some(CreateProject(input, upload))
        case UpdateCall(id, _) => Some(UpdateProject(id, input, upload))
  }

  /** A create or update carrying a file under the wrong field, or a second
      file, is answered 500 once the token verifies, and nothing is
      written; the experience, education and projects routes alike. */
  lemma RefusedUploadWritesNothing(db: Db, header: Option<string>, env: Env, call: Call, stored: string)
    requires ValidDb(db) && Auth.Classify(header, env.verify).Authorized?
    ensures !AcceptsFiles(call.entries, E.FileField) ==>
              Handle(db, header, ExperienceRequest(call, stored).value, env) == (db, ServerError)
    ensures !AcceptsFiles(call.entries, Ed.FileField) ==>
              Handle(db, header, EducationRequest(call, stored).value, env) == (db, ServerError)
    ensures !AcceptsFiles(call.entries, P.FileField) ==>
              Handle(db, header, ProjectRequest(call, stored).value, env) == (db, ServerError)
  {
  }

  /** A new experience entry whose `location` field is a file: multer
      refuses it, so the server answers 500 and stores no row. */
  lemma FileUnderTextFieldRefused(db: Db, header: Option<string>, env: Env, f: ClientFile, stored: string)
    requires ValidDb(db) && Auth.Classify(header, env.verify).Authorized?
    ensures var call := CreateCall([FormEntry("title", Text("t")), FormEntry("company", Text("c")),
                                    FormEntry("location", Upload(f))]);
            && ExperienceRequest(call, stored) == Some(RejectedUpload)
            && Handle(db, header, RejectedUpload, env) == (db, ServerError)
  {
    var entries := [FormEntry("title", Text("t")), FormEntry("company", Text("c")),
                    FormEntry("location", Upload(f))];
    assert entries[2].value.Upload? && entries[2].name != E.FileField;
    assert !AcceptsFiles(entries, E.FileField);
  }

  /** A listed row's id is never 0, so `if (editingId)` takes the update
      branch for every row the table holds. */
  lemma StoredIdsAreTruthy<F>(t: Table<F>, id: int)
    requires Valid(t) && Find(t.rows, id).Some?
    ensures Truthy(Some(Find(t.rows, id).value.id))
  {
  }

  /** With a verified token, an update without a file whose required fields
      are present succeeds and leaves the stored logo as it was. */
  lemma UpdateExperienceKeepsLogo(db: Db, header: Option<string>, env: Env, id: nat, input: E.ExperienceInput)
    requires ValidDb(db) && Auth.Classify(header, env.verify).Authorized?
    requires Find(db.experience.rows, id).Some? && E.SatisfiesNotNull(input)
    ensures var (db', response) := Handle(db, header, UpdateExperience(id, input, None), env);
            && response == Done(E.UpdatedMessage)
            && Find(db'.experience.rows, id).Some?
            && Find(db'.experience.rows, id).value.fields.logo == Find(db.experience.rows, id).value.fields.logo
  {
  }

  lemma UpdateEducationKeepsLogo(db: Db, header: Option<string>, env: Env, id: nat, input: Ed.EducationInput)
    requires ValidDb(db) && Auth.Classify(header, env.verify).Authorized?
    requires Find(db.education.rows, id).Some? && Ed.SatisfiesNotNull(input)
    ensures var (db', response) := Handle(db, header, UpdateEducation(id, input, None), env);
            && response == Done(Ed.UpdatedMessage)
            && Find(db'.education.rows, id).Some?
            && Find(db'.education.rows, id).value.fields.logo == Find(db.education.rows, id).value.fields.logo
  {
  }

  lemma UpdateProjectKeepsImage(db: Db, header: Option<string>, env: Env, id: nat, input: P.ProjectInput)
    requires ValidDb(db) && Auth.Classify(header, env.verify).Authorized?
    requires Find(db.projects.rows, id).Some? && P.SatisfiesNotNull(input)
    ensures var (db', response) := Handle(db, header, UpdateProject(id, input, None), env);
            && response == Done(P.UpdatedMessage)
            && Find(db'.projects.rows, id).Some?
            && Find(db'.projects.rows, id).value.fields.image == Find(db.projects.rows, id).value.fields.image
  {
  }

  /** Opening a stored experience entry and only typing, the client submits
      an update of that row, without a file and with every required input. */
  lemma ExperienceEditSubmitsUpdate(t: Table<E.Experience>, id: nat, s0: Editor<EM.ExperienceForm>,
                                    actions: seq<Action<EM.ExperienceForm>>, stored: string)
    requires Valid(t) && Find(t.rows, id).Some?
    requires Settled(s0, EM.EmptyForm) && !s0.open
    requires Typing(actions)
    ensures var call := EM.HandleSubmit(Run(EM.HandleEdit(s0, E.Read(Find(t.rows, id).value)), EM.EmptyForm, actions));
            && call.UpdateCall? && call.id == id
            && ExperienceRequest(call, stored).Some?
            && ExperienceRequest(call, stored).value.UpdateExperience?
            && ExperienceRequest(call, stored).value.id == id
            && ExperienceRequest(call, stored).value.upload.None?
            && E.SatisfiesNotNull(ExperienceRequest(call, stored).value.experience)
  {
    var s1 := EM.HandleEdit(s0, E.Read(Find(t.rows, id).value));
    var s := Run(s1, EM.EmptyForm, actions);
    TypingKeepsFile(s1, EM.EmptyForm, actions);
    StoredIdsAreTruthy(t, id);
    EM.PackageParses(s.form, None);
  }

  lemma EducationEditSubmitsUpdate(t: Table<Ed.Education>, id: nat, s0: Editor<EdM.EducationForm>,
                                   actions: seq<Action<EdM.EducationForm>>, stored: string)
    requires Valid(t) && Find(t.rows, id).Some?
    requires Settled(s0, EdM.EmptyForm) && !s0.open
    requires Typing(actions)
    ensures var call := EdM.HandleSubmit(Run(EdM.HandleEdit(s0, Find(t.rows, id).value), EdM.EmptyForm, actions));
            && call.UpdateCall? && call.id == id
            && EducationRequest(call, stored).Some?
            && EducationRequest(call, stored).value.UpdateEducation?
            && EducationRequest(call, stored).value.id == id
            && EducationRequest(call, stored).value.upload.None?
            && Ed.SatisfiesNotNull(EducationRequest(call, stored).value.education)
  {
    var s1 := EdM.HandleEdit(s0, Find(t.rows, id).value);
    var s := Run(s1, EdM.EmptyForm, actions);
    TypingKeepsFile(s1, EdM.EmptyForm, actions);
    StoredIdsAreTruthy(t, id);
    EdM.PackageParses(s.form, None);
  }

  lemma ProjectEditSubmitsUpdate(t: Table<P.Project>, id: nat, s0: Editor<PM.ProjectForm>,
                                 actions: seq<Action<PM.ProjectForm>>, stored: string)
    requires Valid(t) && Find(t.rows, id).Some?
    requires Settled(s0, PM.EmptyForm) && !s0.open
    requires Typing(actions)
    ensures var call := PM.HandleSubmit(Run(PM.HandleEdit(s0, Find(t.rows, id).value), PM.EmptyForm, actions));
            && call.UpdateCall? && call.id == id
            && ProjectRequest(call, stored).Some?
            && ProjectRequest(call, stored).value.UpdateProject?
            && ProjectRequest(call, stored).value.id == id
            && ProjectRequest(call, stored).value.upload.None?
            && P.SatisfiesNotNull(ProjectRequest(call, stored).value.project)
  {
    var s1 := PM.HandleEdit(s0, Find(t.rows, id).value);
    var s := Run(s1, PM.EmptyForm, actions);
    TypingKeepsFile(s1, PM.EmptyForm, actions);
    StoredIdsAreTruthy(t, id);
    PM.PackageParses(s.form, None);
  }

  /** Editing an experience entry, changing only text fields and saving:
      the client sends an update of that row without a file, the server
      accepts it (every required input is sent, if only as an empty
      string), and the stored logo stays as it was. */
  lemma ExperienceEditKeepsLogo(db: Db, header: Option<string>, env: Env, s0: Editor<EM.ExperienceForm>,
                                id: nat, actions: seq<Action<EM.ExperienceForm>>, stored: string)
    requires ValidDb(db) && Auth.Classify(header, env.verify).Authorized?
    requires Find(db.experience.rows, id).Some?
    requires Settled(s0, EM.EmptyForm) && !s0.open
    requires Typing(actions)
    ensures var row := Find(db.experience.rows, id).value;
            var call := EM.HandleSubmit(Run(EM.HandleEdit(s0, E.Read(row)), EM.EmptyForm, actions));
            && ExperienceRequest(call, stored).Some?
            && var (db', response) := Handle(db, header, ExperienceRequest(call, stored).value, env);
            && response == Done(E.UpdatedMessage)
            && Find(db'.experience.rows, id).Some?
            && Find(db'.experience.rows, id).value.fields.logo == row.fields.logo
  {
    ExperienceEditSubmitsUpdate(db.experience, id, s0, actions, stored);
    var row := Find(db.experience.rows, id).value;
    var call := EM.HandleSubmit(Run(EM.HandleEdit(s0, E.Read(row)), EM.EmptyForm, actions));
    var req := ExperienceRequest(call, stored).value;
    assert req == UpdateExperience(id, req.experience, None);
    UpdateExperienceKeepsLogo(db, header, env, id, req.experience);
  }

  /** The same for education entries. */
  lemma EducationEditKeepsLogo(db: Db, header: Option<string>, env: Env, s0: Editor<EdM.EducationForm>,
                               id: nat, actions: seq<Action<EdM.EducationForm>>, stored: string)
    requires ValidDb(db) && Auth.Classify(header, env.verify).Authorized?
    requires Find(db.education.rows, id).Some?
    requires Settled(s0, EdM.EmptyForm) && !s0.open
    requires Typing(actions)
    ensures var row := Find(db.education.rows, id).value;
            var call := EdM.HandleSubmit(Run(EdM.HandleEdit(s0, row), EdM.EmptyForm, actions));
            && EducationRequest(call, stored).Some?
            && var (db', response) := Handle(db, header, EducationRequest(call, stored).value, env);
            && response == Done(Ed.UpdatedMessage)
            && Find(db'.education.rows, id).Some?
            && Find(db'.education.rows, id).value.fields.logo == row.fields.logo
  {
    EducationEditSubmitsUpdate(db.education, id, s0, actions, stored);
    var row := Find(db.education.rows, id).value;
    var call := EdM.HandleSubmit(Run(EdM.HandleEdit(s0, row), EdM.EmptyForm, actions));
    var req := EducationRequest(call, stored).value;
    assert req == UpdateEducation(id, req.education, None);
    UpdateEducationKeepsLogo(db, header, env, id, req.education);
  }

  /** The same for projects and their image. */
  lemma ProjectEditKeepsImage(db: Db, header: Option<string>, env: Env, s0: Editor<PM.ProjectForm>,
                              id: nat, actions: seq<Action<PM.ProjectForm>>, stored: string)
    requires ValidDb(db) && Auth.Classify(header, env.verify).Authorized?
    requires Find(db.projects.rows, id).Some?
    requires Settled(s0, PM.EmptyForm) && !s0.open
    requires Typing(actions)
    ensures var row := Find(db.projects.rows, id).value;
            var call := PM.HandleSubmit(Run(PM.HandleEdit(s0, row), PM.EmptyForm, actions));
            && ProjectRequest(call, stored).Some?
            && var (db', response) := Handle(db, header, ProjectRequest(call, stored).value, env);
            && response == Done(P.UpdatedMessage)
            && Find(db'.projects.rows, id).Some?
            && Find(db'.projects.rows, id).value.fields.image == row.fields.image
  {
    ProjectEditSubmitsUpdate(db.projects, id, s0, actions, stored);
    var row := Find(db.projects.rows, id).value;
    var call := PM.HandleSubmit(Run(PM.HandleEdit(s0, row), PM.EmptyForm, actions));
    var req := ProjectRequest(call, stored).value;
    assert req == UpdateProject(id, req.project, None);
    UpdateProjectKeepsImage(db, header, env, id, req.project);
  }

  /** A description the editor saved comes back from the list route, into
      the textarea, and out again as the same list: opening an entry and
      saving it unchanged keeps its bullet points. */
  lemma DescriptionSurvivesResave(row: Row<E.Experience>, text: string, logo: Option<ClientFile>)
    requires row.fields.description == Some(E.JsonList(D.Encode(text)))
    ensures var body := EM.Package(EM.Prefill(E.Read(row)), logo);
            E.ParseBody(body).Some? && E.ParseBody(body).value.description == row.fields.description
  {
    var form := EM.Prefill(E.Read(row));
    var items := D.Encode(text);
    assert E.Read(row).description == items;
    assert form.description == D.EditText(Some(items));
    D.EncodeIdempotent(text);
    assert D.Encode(form.description) == items;
    EM.PackageParses(form, logo);
  }

  /** Saving an entry that had a null location unchanged stores the empty
      string there: `handleEdit` shows null as an empty input, and an empty
      input is sent as the empty string. */
  lemma ResaveTurnsNullIntoEmpty(row: Row<E.Experience>, logo: Option<ClientFile>)
    requires row.fields.location.None?
    ensures var body := EM.Package(EM.Prefill(E.Read(row)), logo);
            E.ParseBody(body).Some? && E.ParseBody(body).value.location == Some("")
  {
    var form := EM.Prefill(E.Read(row));
    assert form.location == "";
    EM.PackageParses(form, logo);
  }

  /** A save made by a manager resolves, and so closes the modal, exactly
      when the server accepted and applied it; a missing or rejected token
      and a rejected statement all leave the modal open and the database as
      it was. */
  lemma SaveResolvesIffApplied(db: Db, header: Option<string>, req: Request, env: Env)
    requires ValidDb(db) && Guarded(req)
    ensures var (db', response) := Handle(db, header, req, env);
            && (Api.ClientCall(response).Returned? <==>
                  Auth.Classify(header, env.verify).Authorized? && !response.ServerError?)
            && (Api.ClientCall(response).Thrown? ==> db' == db)
  {
  }

  /** Logging in from the client with an unknown username and with a wrong
      password both throw the same `Invalid credentials` error (the client
      always sends the password as a string). Even the 500 a known username
      without a string password gets is thrown the same way, although the
      status itself differs (`Server.LoginStatusRevealsUsername`). */
  lemma ClientLoginFailsAlike(db: Db, header: Option<string>, env: Env,
                              unknown: string, known: string, wrong: string, any: string)
    requires ValidDb(db)
    requires forall i :: 0 <= i < |db.admins| ==> db.admins[i].username != unknown
    requires Auth.FindAdmin(db.admins, known).Some?
    requires !env.passwordMatches(wrong, Auth.FindAdmin(db.admins, known).value.passwordHash)
    ensures Api.ClientLogin(Handle(db, header, LoginRequest(unknown, Some(any)), env).1)
            == Api.ClientLogin(Handle(db, header, LoginRequest(known, Some(wrong)), env).1)
            == Api.Thrown(Api.InvalidCredentials)
    ensures Api.ClientLogin(Handle(db, header, LoginRequest(known, None), env).1) == Api.Thrown(Api.InvalidCredentials)
  {
    Auth.LoginFailsAlike(db.admins, unknown, known, wrong, Some(any), env.passwordMatches);
    Auth.MissingPasswordRevealsUsername(db.admins, unknown, known, env.passwordMatches);
    RefusedLoginThrows(db, header, LoginRequest(unknown, Some(any)), env);
    RefusedLoginThrows(db, header, LoginRequest(known, Some(wrong)), env);
    RefusedLoginThrows(db, header, LoginRequest(known, None), env);
  }

  /** A login the server does not accept is thrown by the client. */
  lemma RefusedLoginThrows(db: Db, header: Option<string>, req: Request, env: Env)
    requires ValidDb(db) && req.LoginRequest?
    requires !Auth.Login(db.admins, req.username, req.password, env.passwordMatches).LoggedIn?
    ensures Api.ClientLogin(Handle(db, header, req, env).1) == Api.Thrown(Api.InvalidCredentials)
  {
  }

  /** A successful login from the client returns the token for that admin. */
  lemma ClientLoginSucceeds(db: Db, header: Option<string>, env: Env, username: string, password: string)
    requires ValidDb(db)
    requires Auth.FindAdmin(db.admins, username).Some?
    requires env.passwordMatches(password, Auth.FindAdmin(db.admins, username).value.passwordHash)
    ensures var r := Api.ClientLogin(Handle(db, header, LoginRequest(username, Some(password)), env).1);
            var admin := Auth.FindAdmin(db.admins, username).value;
            && r.Returned? && r.body.LoginAccepted?
            && r.body.token.claims == Auth.Claims(admin.id, admin.username)
            && r.body.token.lifetimeSeconds == Auth.TokenLifetimeSeconds
  {
  }

  /** With a verified token, a create whose required fields are present
      adds a row under a fresh id. */
  lemma CreateProjectAdds(db: Db, header: Option<string>, env: Env, input: P.ProjectInput, upload: Option<string>)
    requires ValidDb(db) && Auth.Classify(header, env.verify).Authorized?
    requires P.SatisfiesNotNull(input)
    ensures var (db', response) := Handle(db, header, CreateProject(input, upload), env);
            && response.Added? && response.id > db.projects.lastId
            && |db'.projects.rows| == |db.projects.rows| + 1
            && Find(db'.projects.rows, response.id).Some?
            && Find(db'.projects.rows, response.id).value.fields.title == input.title.value
            && Find(db'.projects.rows, response.id).value.createdAt == env.now
  {
  }

  /** `+ Add`, filling in the form and saving with a verified token always
      adds a row: the client sends every required input, so the insert
      cannot hit a NOT NULL constraint, and the new id is above every id
      handed out before. */
  lemma AddedProjectIsStored(db: Db, header: Option<string>, env: Env, s0: Editor<PM.ProjectForm>,
                             actions: seq<Action<PM.ProjectForm>>, stored: string)
    requires ValidDb(db) && Auth.Classify(header, env.verify).Authorized?
    requires Settled(s0, PM.EmptyForm) && !s0.open
    requires Filling(actions)
    ensures var s := Run(OpenAdd(s0), PM.EmptyForm, actions);
            var call := PM.HandleSubmit(s);
            && call.CreateCall?
            && ProjectRequest(call, stored).Some?
            && var (db', response) := Handle(db, header, ProjectRequest(call, stored).value, env);
            && response.Added? && response.id > db.projects.lastId
            && |db'.projects.rows| == |db.projects.rows| + 1
            && Find(db'.projects.rows, response.id).Some?
            && Find(db'.projects.rows, response.id).value.fields.title == s.form.title
            && Find(db'.projects.rows, response.id).value.createdAt == env.now
  {
    var s := Run(OpenAdd(s0), PM.EmptyForm, actions);
    var body := PM.Package(s.form, s.file);
    AddLeadsToCreate(s0, PM.EmptyForm, actions, body);
    var call := PM.HandleSubmit(s);
    assert call == CreateCall(body);
    PM.PackageParses(s.form, s.file);
    var input := P.ProjectInput(Some(s.form.title), Some(s.form.description), Some(s.form.link));
    var upload := if HasFile(body, P.FileField) then Some(stored) else None;
    assert ProjectRequest(call, stored) == Some(CreateProject(input, upload));
    CreateProjectAdds(db, header, env, input, upload);
  }

  /** With the intended `BASE_URL`, the path the server stores for an
      uploaded file becomes a URL on the origin the API is mounted on. */
  lemma StoredFileUrl(mode: string, origin: string, stored: string)
    requires origin != ""
    ensures var env := Api.BuildEnv(mode, Some(origin + "/api"));
            Api.GetImageUrl(Api.BaseUrlIntended(env), Uploads.Ref(Some(stored)))
              == Some(origin + Uploads.Prefix + stored)
  {
    Api.IntendedBaseUrlIsOrigin(mode, origin);
    var path := Uploads.Ref(Some(stored)).value;
    assert path[0] == '/';
    assert !Strings.StartsWith(path, Api.Absolute) by {
      if |Api.Absolute| <= |path| {
        assert path[..4][0] == '/';
      }
    }
    assert path == Uploads.Prefix + stored;
    assert Api.BaseUrlIntended(Api.BuildEnv(mode, Some(origin + "/api"))) + path
           == origin + Uploads.Prefix + stored;
  }
}

=== FILE: experience.dfy ===
/** The `/api/experience` routes over the `experience` table. `title` and
    `company` are NOT NULL; `logo`, `location`, `start_date`, `end_date` and
    `description` may be null. The description column holds the JSON text of a
    list of bullet points. */
module ExperienceRoutes {
  import opened Base
  import opened Tables
  import opened Multipart
  import Uploads

  /** The stored description text: the empty string, or the JSON
      serialization of a list of strings (the only non-empty text the admin
      client sends), kept here as the list itself. */
  datatype DescriptionText = EmptyText | JsonList(items: seq<string>)

  /** The columns of an `experience` row other than `id` and `created_at`. */
  datatype Experience = Experience(
    logo: Option<string>,
    title: string,
    company: string,
    location: Option<string>,
    startDate: Option<string>,
    endDate: Option<string>,
    description: Option<DescriptionText>)

  /** The text fields of a create or update request; `None` is an absent
      field, which binds as SQL null. */
  datatype ExperienceInput = ExperienceInput(
    title: Option<string>,
    company: Option<string>,
    location: Option<string>,
    startDate: Option<string>,
    endDate: Option<string>,
    description: Option<DescriptionText>)

  /** One element of the list route's JSON answer: the row with its
      description decoded. */
  datatype ExperienceView = ExperienceView(
    id: nat,
    createdAt: int,
    logo: Option<string>,
    title: string,
    company: string,
    location: Option<string>,
    startDate: Option<string>,
    endDate: Option<string>,
    description: seq<string>)

  const FileField: string := "logo"
  const AddedMessage: string := "Experience added successfully"
  const UpdatedMessage: string := "Experience updated successfully"
  const DeletedMessage: string := "Experience deleted successfully"

  /** The NOT NULL constraints of the `experience` table, as the engine
      checks them: only null is refused, the empty string is accepted. */
  predicate SatisfiesNotNull(input: ExperienceInput)
  {
    input.title.Some? && input.company.Some?
  }

  /** `req.body` of a create or update request as the typed input. `None`
      when a field holds something the admin client never sends (a list in a
      text column, or non-empty description text that is not a serialized
      list); such bodies are outside this model. Every text column takes
      its field's string, or null when the field is absent; the description
      takes the list, or the empty text. */
  function ParseBody(entries: seq<FormEntry>): (r: Option<ExperienceInput>)
    ensures r.None? <==>
              || BodyField(entries, "title").Lines?
              || BodyField(entries, "company").Lines?
              || BodyField(entries, "location").Lines?
              || BodyField(entries, "start_date").Lines?
              || BodyField(entries, "end_date").Lines?
              || (BodyField(entries, "description").Str? && BodyField(entries, "description").s != "")
    ensures r.Some? ==>
              && r.value.title == TextOf(BodyField(entries, "title"))
              && r.value.company == TextOf(BodyField(entries, "company"))
              && r.value.location == TextOf(BodyField(entries, "location"))
              && r.value.startDate == TextOf(BodyField(entries, "start_date"))
              && r.value.endDate == TextOf(BodyField(entries, "end_date"))
    ensures r.Some? ==> (r.value.description.None? <==> BodyField(entries, "description").Missing?)
    ensures r.Some? ==> (r.value.description == Some(EmptyText) <==> BodyField(entries, "description").Str?)
    ensures r.Some? && BodyField(entries, "description").Lines? ==>
              r.value.description == Some(JsonList(BodyField(entries, "description").items))
  {
    var title := BodyField(entries, "title");
    var company := BodyField(entries, "company");
    var location := BodyField(entries, "location");
    var startDate := BodyField(entries, "start_date");
    var endDate := BodyField(entries, "end_date");
    var description := BodyField(entries, "description");
    if title.Lines? || company.Lines? || location.Lines? || startDate.Lines? || endDate.Lines? then None
    else if description.Str? && description.s != "" then None
    else
      Some(ExperienceInput(
        TextOf(title), TextOf(company), TextOf(location), TextOf(startDate), TextOf(endDate),
        match description
        case Missing => None
        case Str(_) => Some(EmptyText)
        case Lines(items) => Some(JsonList(items))))
  }

  /** `POST /api/experience`: inserts the request's fields and the uploaded
      logo's path (null without a file). A null title or company makes the
      insert throw, which reaches the client as a server error and leaves
      the table as it was. */
  function Create(t: Table<Experience>, input: ExperienceInput, upload: Option<string>, now: int)
    : (r: Result<(Table<Experience>, nat), DbError>)
    requires Valid(t)
    ensures r.Failure? <==> !SatisfiesNotNull(input)
    ensures r.Success? ==>
              var (t', id) := r.value;
              && Valid(t')
              && id > t.lastId
              && |t'.rows| == |t.rows| + 1
              && (forall k :: k != id ==> Find(t'.rows, k) == Find(t.rows, k))
              && Find(t'.rows, id) == Some(Row(id, now, Experience(
                   Uploads.Ref(upload), input.title.value, input.company.value,
                   input.location, input.startDate, input.endDate, input.description)))
  {
    if !SatisfiesNotNull(input) then Failure(NotNullViolation)
    else
      Success(Tables.Insert(t, now, Experience(
        Uploads.Ref(upload), input.title.value, input.company.value,
        input.location, input.startDate, input.endDate, input.description)))
  }

  /** The row's new columns under `UPDATE experience SET title = ?, ...`:
      every text column from the request, the logo only when a file came. */
  function Rewrite(stored: Experience, title: string, company: string, input: ExperienceInput, upload: Option<string>)
    : Experience
  {
    Experience(
      if upload.Some? then Uploads.Ref(upload) else stored.logo,
      title, company, input.location, input.startDate, input.endDate, input.description)
  }

  /** `PUT /api/experience/:id`. An id that matches no row changes nothing
      and still reports success; the NOT NULL check only fires on a row that
      is actually rewritten. */
  function Update(t: Table<Experience>, id: int, input: ExperienceInput, upload: Option<string>)
    : (r: Result<Table<Experience>, DbError>)
    requires Valid(t)
    ensures Find(t.rows, id).None? ==> r == Success(t)
    ensures Find(t.rows, id).Some? ==> (r.Failure? <==> !SatisfiesNotNull(input))
    ensures r.Success? ==>
              && Valid(r.value)
              && r.value.lastId == t.lastId
              && |r.value.rows| == |t.rows|
              && (forall k :: k != id ==> Find(r.value.rows, k) == Find(t.rows, k))
    ensures r.Success? && Find(t.rows, id).Some? ==>
              var before := Find(t.rows, id).value;
              var after := Find(r.value.rows, id);
              && after.Some?
              && after.value.createdAt == before.createdAt
              && after.value.fields.title == input.title.value
              && after.value.fields.company == input.company.value
              && after.value.fields.location == input.location
              && after.value.fields.startDate == input.startDate
              && after.value.fields.endDate == input.endDate
              && after.value.fields.description == input.description
              && after.value.fields.logo == (if upload.Some? then Some(Uploads.Prefix + upload.value)
                                             else before.fields.logo)
  {
    if Find(t.rows, id).None? then Success(t)
    else if !SatisfiesNotNull(input) then Failure(NotNullViolation)
    else
      var title := input.title.value;
      var company := input.company.value;
      Success(Tables.Update(t, id, row => Rewrite(row, title, company, input, upload)))
  }

  /** `DELETE /api/experience/:id`. */
  function Delete(t: Table<Experience>, id: int): (r: Table<Experience>)
    requires Valid(t)
    ensures Valid(r) && Find(r.rows, id).None?
    ensures forall k :: k != id ==> Find(r.rows, k) == Find(t.rows, k)
    ensures Find(t.rows, id).None? ==> r == t
  {
    Tables.Delete(t, id)
  }

  /** The read side of the description codec: null and the empty string
      (both falsy) read as the empty list, serialized text as its list. */
  function ReadDescription(d: Option<DescriptionText>): (r: seq<string>)
    ensures d.None? || d == Some(EmptyText) ==> r == []
    ensures d.Some? && d.value.JsonList? ==> r == d.value.items
  {
    match d
    case None => []
    case Some(EmptyText) => []
    case Some(JsonList(items)) => items
  }

  /** One row of the list answer: every column passed through, the
      description decoded. */
  function Read(row: Row<Experience>): (r: ExperienceView)
    ensures r.id == row.id && r.createdAt == row.createdAt
    ensures r.logo == row.fields.logo && r.title == row.fields.title && r.company == row.fields.company
    ensures r.location == row.fields.location && r.startDate == row.fields.startDate
    ensures r.endDate == row.fields.endDate
    ensures r.description == ReadDescription(row.fields.description)
  {
    var f := row.fields;
    ExperienceView(row.id, row.createdAt, f.logo, f.title, f.company, f.location, f.startDate, f.endDate,
                   ReadDescription(f.description))
  }

  /** `GET /api/experience`: the rows decoded, in an order the query may
      return (the model breaks same-second ties by the larger id). */
  function List(t: Table<Experience>): (r: seq<ExperienceView>)
    ensures |r| == |t.rows|
    ensures exists sorted :: IsListing(t.rows, sorted) && r == ReadAll(sorted)
  {
    var sorted := ListNewestFirst(t.rows);
    ListNewestFirstIsListing(t.rows);
    ReadAll(sorted)
  }

  /** The list answer for rows already in listing order. */
  function ReadAll(rows: seq<Row<Experience>>): (r: seq<ExperienceView>)
    ensures |r| == |rows|
    ensures forall i :: 0 <= i < |rows| ==> r[i] == Read(rows[i])
    decreases |rows|
  {
    if |rows| == 0 then [] else [Read(rows[0])] + ReadAll(rows[1..])
  }

  /** The list route answers with later creation seconds first. */
  lemma ListOrderedByCreation(t: Table<Experience>)
    ensures forall i, j :: 0 <= i < j < |List(t)| ==> List(t)[i].createdAt >= List(t)[j].createdAt
  {
    var sorted := ListNewestFirst(t.rows);
    var r := List(t);
    forall i, j | 0 <= i < j < |r|
      ensures r[i].createdAt >= r[j].createdAt
    {
      assert NewerOrSame(sorted[i], sorted[j]);
    }
  }

  /** Every row of the table appears, decoded, in the list answer (which has
      exactly as many elements as the table has rows). */
  lemma ListContainsEveryRow(t: Table<Experience>)
    ensures |List(t)| == |t.rows|
    ensures forall i :: 0 <= i < |t.rows| ==> Read(t.rows[i]) in List(t)
  {
    var sorted := ListNewestFirst(t.rows);
    var r := List(t);
    forall i | 0 <= i < |t.rows|
      ensures Read(t.rows[i]) in r
    {
      assert t.rows[i] in multiset(sorted);
      var k :| 0 <= k < |sorted| && sorted[k] == t.rows[i];
      assert r[k] == Read(t.rows[i]);
    }
  }

  /** Every element of the list answer is a decoded row of the table. */
  lemma ListHoldsOnlyRows(t: Table<Experience>)
    ensures forall k :: 0 <= k < |List(t)| ==> exists j :: 0 <= j < |t.rows| && List(t)[k] == Read(t.rows[j])
  {
    var sorted := ListNewestFirst(t.rows);
    var r := List(t);
    forall k | 0 <= k < |r|
      ensures exists j :: 0 <= j < |t.rows| && r[k] == Read(t.rows[j])
    {
      assert sorted[k] in multiset(t.rows);
      var j :| 0 <= j < |t.rows| && t.rows[j] == sorted[k];
      assert r[k] == Read(t.rows[j]);
    }
  }
}

=== FILE: experience_manager.dfy ===
/** The admin page for experience entries: its form record, how a listed
    entry pre-fills the form, and the multipart body `handleSubmit` builds. */
module ExperienceManager {
  import opened Base
  import opened Multipart
  import opened Editor
  import D = DescriptionCodec
  import R = ExperienceRoutes

  /** `formData`: every input is a text value; the description is the
      textarea's text, one bullet point per line. */
  datatype ExperienceForm = ExperienceForm(
    title: string,
    company: string,
    location: string,
    startDate: string,
    endDate: string,
    description: string)

  const EmptyForm: ExperienceForm := ExperienceForm("", "", "", "", "", "")

  /** The modal's state on mount. */
  function Initial(): (s: Editor<ExperienceForm>)
    ensures Settled(s, EmptyForm) && !s.open
  {
    Closed(EmptyForm)
  }

  /** The form `handleEdit` fills in for a listed entry. */
  function Prefill(entry: R.ExperienceView): (f: ExperienceForm)
    ensures f.title == entry.title && f.company == entry.company
    ensures entry.location.None? ==> f.location == ""
    ensures entry.startDate.None? ==> f.startDate == ""
    ensures entry.endDate.None? ==> f.endDate == ""
    ensures entry.location.Some? ==> f.location == entry.location.value
    ensures entry.startDate.Some? ==> f.startDate == entry.startDate.value
    ensures entry.endDate.Some? ==> f.endDate == entry.endDate.value
    ensures f.description == D.EditText(Some(entry.description))
  {
    ExperienceForm(entry.title, entry.company, OrEmpty(entry.location), OrEmpty(entry.startDate),
                   OrEmpty(entry.endDate), D.EditText(Some(entry.description)))
  }

  /** `handleEdit(exp)`. */
  function HandleEdit(s: Editor<ExperienceForm>, entry: R.ExperienceView): (r: Editor<ExperienceForm>)
    ensures r.open && r.editingId == Some(entry.id) && r.form == Prefill(entry) && r.file == s.file
  {
    Edit(s, entry.id, Prefill(entry))
  }

  /** `closeModal`: closed, no id, every input empty, no logo. */
  function HandleClose(s: Editor<ExperienceForm>): (r: Editor<ExperienceForm>)
    ensures !r.open && r.editingId.None? && r.file.None?
    ensures r.form.title == "" && r.form.company == "" && r.form.location == ""
    ensures r.form.startDate == "" && r.form.endDate == "" && r.form.description == ""
  {
    CloseModal(s, EmptyForm)
  }

  /** The entry names `handleSubmit` appends, in order. */
  const TextFields: seq<string> := ["title", "company", "location", "start_date", "end_date", "description"]

  lemma TextEntryNames(form: ExperienceForm)
    ensures Names(TextEntries(form)) == TextFields
  {
    var t := TextEntries(form);
    forall i | 0 <= i < |t|
      ensures Names(t)[i] == TextFields[i]
    {
    }
  }

  /** The `FormData` of `handleSubmit`: the five text inputs, the description
      as the list of its non-blank lines, and the logo only when one was
      chosen. */
  function Package(form: ExperienceForm, logo: Option<ClientFile>): (r: seq<FormEntry>)
    ensures Names(r) == TextFields + (if logo.Some? then [R.FileField] else [])
    ensures HasFile(r, R.FileField) <==> logo.Some?
    ensures logo.Some? ==> Lookup(r, R.FileField) == Some(Upload(logo.value))
    ensures AcceptsFiles(r, R.FileField)
  {
    TextEntryNames(form);
    AppendFile(TextEntries(form), R.FileField, logo);
    TextEntries(form) + FileEntries(R.FileField, logo)
  }

  /** The entries appended unconditionally. */
  function TextEntries(form: ExperienceForm): (r: seq<FormEntry>)
    ensures |r| == |TextFields|
  {
    [FormEntry("title", Text(form.title)),
     FormEntry("company", Text(form.company)),
     FormEntry("location", Text(form.location)),
     FormEntry("start_date", Text(form.startDate)),
     FormEntry("end_date", Text(form.endDate)),
     FormEntry("description", JsonLines(D.Encode(form.description)))]
  }

  /** `handleSubmit`: the call it makes and the body it sends. */
  function HandleSubmit(s: Editor<ExperienceForm>): (r: Call)
    ensures r.UpdateCall? <==> Truthy(s.editingId)
    ensures r.UpdateCall? ==> r.id == s.editingId.value
    ensures HasFile(r.entries, R.FileField) <==> s.file.Some?
    ensures r.entries == Package(s.form, s.file)
  {
    Submit(s, Package(s.form, s.file))
  }

  /** No two text inputs share a name. */
  lemma TextFieldsDistinct()
    ensures forall j, k :: 0 <= j < k < |TextFields| ==> TextFields[j] != TextFields[k]
  {
  }

  /** Each text input is found under its own name. */
  lemma PackageLookup(form: ExperienceForm, logo: Option<ClientFile>, i: nat)
    requires i < |TextFields|
    ensures Lookup(Package(form, logo), TextFields[i]) == Some(TextEntries(form)[i].value)
  {
    var r := Package(form, logo);
    assert r[i] == TextEntries(form)[i];
    TextFieldsDistinct();
    forall j | 0 <= j < i
      ensures r[j].name != r[i].name
    {
      assert r[j].name == Names(r)[j] == TextFields[j];
      assert r[i].name == Names(r)[i] == TextFields[i];
    }
    LookupFirst(r, i);
  }

  /** Each text input reaches the server as a string body field, and the
      description as its list of lines. */
  lemma PackageFields(form: ExperienceForm, logo: Option<ClientFile>)
    ensures var r := Package(form, logo);
            && BodyField(r, "title") == Str(form.title)
            && BodyField(r, "company") == Str(form.company)
            && BodyField(r, "location") == Str(form.location)
            && BodyField(r, "start_date") == Str(form.startDate)
            && BodyField(r, "end_date") == Str(form.endDate)
            && BodyField(r, "description") == Lines(D.Encode(form.description))
  {
    PackageLookup(form, logo, 0);
    PackageLookup(form, logo, 1);
    PackageLookup(form, logo, 2);
    PackageLookup(form, logo, 3);
    PackageLookup(form, logo, 4);
    PackageLookup(form, logo, 5);
  }

  /** The server reads back exactly what the form held: every text input as
      a string (empty ones included, so never null), and the description as
      its encoded list. */
  lemma PackageParses(form: ExperienceForm, logo: Option<ClientFile>)
    ensures R.ParseBody(Package(form, logo)) == Some(R.ExperienceInput(
              Some(form.title), Some(form.company), Some(form.location), Some(form.startDate),
              Some(form.endDate), Some(R.JsonList(D.Encode(form.description)))))
    ensures R.SatisfiesNotNull(R.ParseBody(Package(form, logo)).value)
  {
    PackageFields(form, logo);
  }
}

=== FILE: multipart.dfy ===
/** The multipart form bodies the admin client sends and the server reads.
    The client appends named entries to a `FormData`; on the server, multer
    puts the text entries into `req.body` and the one file field it was told
    about into `req.file`. */
module Multipart {
  import opened Base

  /** A file chosen in the browser's file input; only its identity matters. */
  datatype ClientFile = ClientFile(name: string)

  /** An entry's value: plain text, the text `JSON.stringify` makes of a list
      of strings (kept as the list itself), or a file. */
  datatype FormValue = Text(text: string) | JsonLines(lines: seq<string>) | Upload(file: ClientFile)

  datatype FormEntry = FormEntry(name: string, value: FormValue)

  /** The entry names in the order they were appended. */
  function Names(entries: seq<FormEntry>): (r: seq<string>)
    ensures |r| == |entries|
    ensures forall i :: 0 <= i < |entries| ==> r[i] == entries[i].name
    decreases |entries|
  {
    if |entries| == 0 then [] else [entries[0].name] + Names(entries[1..])
  }

  /** The names of two bodies appended one after the other. */
  lemma {:induction false} NamesAppend(a: seq<FormEntry>, b: seq<FormEntry>)
    ensures Names(a + b) == Names(a) + Names(b)
    decreases |a|
  {
    if |a| == 0 {
      assert a + b == b;
    } else {
      assert (a + b)[1..] == a[1..] + b;
      NamesAppend(a[1..], b);
    }
  }

  /** The first entry with the given name. */
  function Lookup(entries: seq<FormEntry>, name: string): (r: Option<FormValue>)
    ensures r.Some? ==> FormEntry(name, r.value) in entries
    ensures r.None? <==> name !in Names(entries)
    decreases |entries|
  {
    if |entries| == 0 then None
    else if entries[0].name == name then Some(entries[0].value)
    else Lookup(entries[1..], name)
  }

  /** An entry whose name no earlier entry has is the one found. */
  lemma {:induction false} LookupFirst(entries: seq<FormEntry>, i: nat)
    requires i < |entries|
    requires forall j :: 0 <= j < i ==> entries[j].name != entries[i].name
    ensures Lookup(entries, entries[i].name) == Some(entries[i].value)
    decreases i
  {
    if i > 0 {
      LookupFirst(entries[1..], i - 1);
    }
  }

  /** `if (file) data.append(field, file)`: one file entry when a file was
      chosen, none otherwise. */
  function FileEntries(field: string, file: Option<ClientFile>): seq<FormEntry>
  {
    if file.Some? then [FormEntry(field, Upload(file.value))] else []
  }

  /** Appending the optional file entry after entries that do not use its
      name: the name is listed, and the file found, exactly when a file was
      chosen. */
  lemma AppendFile(text: seq<FormEntry>, field: string, file: Option<ClientFile>)
    requires field !in Names(text) && NoFiles(text)
    ensures var r := text + FileEntries(field, file);
            && Names(r) == Names(text) + (if file.Some? then [field] else [])
            && (HasFile(r, field) <==> file.Some?)
            && (file.Some? ==> Lookup(r, field) == Some(Upload(file.value)))
            && AcceptsFiles(r, field)
  {
    var tail := FileEntries(field, file);
    var r := text + tail;
    NamesAppend(text, tail);
    forall j | 0 <= j < |text|
      ensures r[j] == text[j] && r[j].name != field && !r[j].value.Upload?
    {
      assert r[j] == text[j];
      assert Names(text)[j] in Names(text);
    }
    if file.Some? {
      var entry := FormEntry(field, Upload(file.value));
      assert tail == [entry];
      assert Names(tail) == [field];
      assert r[|text|] == entry;
      LookupFirst(r, |text|);
    } else {
      assert r == text;
    }
  }

  /** What `req.body[name]` holds once the body is parsed. */
  datatype BodyValue = Missing | Str(s: string) | Lines(items: seq<string>)

  /** A text entry as the route sees it; file entries are not body fields. */
  function BodyField(entries: seq<FormEntry>, name: string): BodyValue
  {
    match Lookup(entries, name)
    case None => Missing
    case Some(Text(s)) => Str(s)
    case Some(JsonLines(items)) => Lines(items)
    case Some(Upload(_)) => Missing
  }

  /** A non-list body field as a column value: the string, or null when the
      field is absent. */
  function TextOf(v: BodyValue): (r: Option<string>)
    requires !v.Lines?
    ensures r.Some? <==> v.Str?
    ensures v.Str? ==> r == Some(v.s)
  {
    if v.Str? then Some(v.s) else None
  }

  /** Whether `req.file` is set for the named file field: some file entry
      carries that name. */
  predicate HasFile(entries: seq<FormEntry>, name: string)
  {
    exists i :: 0 <= i < |entries| && entries[i].name == name && entries[i].value.Upload?
  }

  /** A body of text entries only. */
  predicate NoFiles(entries: seq<FormEntry>)
  {
    forall i :: 0 <= i < |entries| ==> !entries[i].value.Upload?
  }

  /** multer's `upload.single(field)` lets a body through when it holds at
      most one file, under `field`. Any other file entry, or a second one,
      makes multer refuse the request (`LIMIT_UNEXPECTED_FILE`) before the
      route runs. */
  predicate AcceptsFiles(entries: seq<FormEntry>, field: string)
  {
    && (forall i :: 0 <= i < |entries| && entries[i].value.Upload? ==> entries[i].name == field)
    && (forall i, j :: 0 <= i < j < |entries| && entries[i].value.Upload? ==> !entries[j].value.Upload?)
  }
}

=== FILE: projects.dfy ===
/** The `/api/projects` routes over the `projects` table. `title` and `link`
    are NOT NULL; `image` and `description` may be null. */
module ProjectRoutes {
  import opened Base
  import opened Tables
  import opened Multipart
  import Uploads

  /** The columns of a `projects` row other than `id` and `created_at`. */
  datatype Project = Project(
    image: Option<string>,
    title: string,
    description: Option<string>,
    link: string)

  /** The text fields of a create or update request; `None` is an absent
      field, which binds as SQL null. */
  datatype ProjectInput = ProjectInput(
    title: Option<string>,
    description: Option<string>,
    link: Option<string>)

  const FileField: string := "image"
  const AddedMessage: string := "Project added successfully"
  const UpdatedMessage: string := "Project updated successfully"
  const DeletedMessage: string := "Project deleted successfully"

  /** The NOT NULL constraints of the `projects` table: only null is
      refused, the empty string is accepted. */
  predicate SatisfiesNotNull(input: ProjectInput)
  {
    input.title.Some? && input.link.Some?
  }

  /** `req.body` as the typed input; `None` when a field holds a list, which
      the admin client never sends for these columns. */
  function ParseBody(entries: seq<FormEntry>): (r: Option<ProjectInput>)
    ensures r.None? <==>
              || BodyField(entries, "title").Lines?
              || BodyField(entries, "description").Lines?
              || BodyField(entries, "link").Lines?
    ensures r.Some? ==>
              && r.value.title == TextOf(BodyField(entries, "title"))
              && r.value.description == TextOf(BodyField(entries, "description"))
              && r.value.link == TextOf(BodyField(entries, "link"))
  {
    var title := BodyField(entries, "title");
    var description := BodyField(entries, "description");
    var link := BodyField(entries, "link");
    if title.Lines? || description.Lines? || link.Lines? then None
    else Some(ProjectInput(TextOf(title), TextOf(description), TextOf(link)))
  }

  /** `POST /api/projects`: inserts the request's fields and the uploaded
      image's path (null without a file); a null title or link makes the
      insert throw and leaves the table as it was. */
  function Create(t: Table<Project>, input: ProjectInput, upload: Option<string>, now: int)
    : (r: Result<(Table<Project>, nat), DbError>)
    requires Valid(t)
    ensures r.Failure? <==> !SatisfiesNotNull(input)
    ensures r.Success? ==>
              var (t', id) := r.value;
              && Valid(t')
              && id > t.lastId
              && |t'.rows| == |t.rows| + 1
              && (forall k :: k != id ==> Find(t'.rows, k) == Find(t.rows, k))
              && Find(t'.rows, id) == Some(Row(id, now, Project(
                   Uploads.Ref(upload), input.title.value, input.description, input.link.value)))
  {
    if !SatisfiesNotNull(input) then Failure(NotNullViolation)
    else
      Success(Tables.Insert(t, now, Project(
        Uploads.Ref(upload), input.title.value, input.description, input.link.value)))
  }

  /** The row's new columns under `UPDATE projects SET title = ?, ...`. */
  function Rewrite(stored: Project, title: string, link: string, input: ProjectInput, upload: Option<string>)
    : Project
  {
    Project(if upload.Some? then Uploads.Ref(upload) else stored.image, title, input.description, link)
  }

  /** `PUT /api/projects/:id`: every text column from the request, the image
      only when a file came; an unknown id changes nothing and succeeds. */
  function Update(t: Table<Project>, id: int, input: ProjectInput, upload: Option<string>)
    : (r: Result<Table<Project>, DbError>)
    requires Valid(t)
    ensures Find(t.rows, id).None? ==> r == Success(t)
    ensures Find(t.rows, id).Some? ==> (r.Failure? <==> !SatisfiesNotNull(input))
    ensures r.Success? ==>
              && Valid(r.value)
              && r.value.lastId == t.lastId
              && |r.value.rows| == |t.rows|
              && (forall k :: k != id ==> Find(r.value.rows, k) == Find(t.rows, k))
    ensures r.Success? && Find(t.rows, id).Some? ==>
              var before := Find(t.rows, id).value;
              var after := Find(r.value.rows, id);
              && after.Some?
              && after.value.createdAt == before.createdAt
              && after.value.fields.title == input.title.value
              && after.value.fields.description == input.description
              && after.value.fields.link == input.link.value
              && after.value.fields.image == (if upload.Some? then Some(Uploads.Prefix + upload.value)
                                              else before.fields.image)
  {
    if Find(t.rows, id).None? then Success(t)
    else if !SatisfiesNotNull(input) then Failure(NotNullViolation)
    else
      var title := input.title.value;
      var link := input.link.value;
      Success(Tables.Update(t, id, row => Rewrite(row, title, link, input, upload)))
  }

  /** `DELETE /api/projects/:id`. */
  function Delete(t: Table<Project>, id: int): (r: Table<Project>)
    requires Valid(t)
    ensures Valid(r) && Find(r.rows, id).None?
    ensures forall k :: k != id ==> Find(r.rows, k) == Find(t.rows, k)
    ensures Find(t.rows, id).None? ==> r == t
  {
    Tables.Delete(t, id)
  }

  /** `GET /api/projects`: the rows as stored, latest creation second first. */
  function List(t: Table<Project>): (r: seq<Row<Project>>)
    ensures IsListing(t.rows, r)
  {
    ListNewestFirst(t.rows)
  }
}

=== FILE: projects_manager.dfy ===
/** The admin page for projects: its form record, how a listed project
    pre-fills the form, and the multipart body `handleSubmit` builds. */
module ProjectsManager {
  import opened Base
  import opened Multipart
  import opened Editor
  import opened Tables
  import R = ProjectRoutes

  datatype ProjectForm = ProjectForm(title: string, description: string, link: string)

  const EmptyForm: ProjectForm := ProjectForm("", "", "")

  /** The modal's state on mount. */
  function Initial(): (s: Editor<ProjectForm>)
    ensures Settled(s, EmptyForm) && !s.open
  {
    Closed(EmptyForm)
  }

  /** The form `handleEdit` fills in for a listed row. */
  function Prefill(row: Row<R.Project>): (f: ProjectForm)
    ensures f.title == row.fields.title && f.link == row.fields.link
    ensures row.fields.description.None? ==> f.description == ""
    ensures row.fields.description.Some? ==> f.description == row.fields.description.value
  {
    ProjectForm(row.fields.title, OrEmpty(row.fields.description), row.fields.link)
  }

  /** `handleEdit(project)`. */
  function HandleEdit(s: Editor<ProjectForm>, row: Row<R.Project>): (r: Editor<ProjectForm>)
    ensures r.open && r.editingId == Some(row.id) && r.form == Prefill(row) && r.file == s.file
  {
    Edit(s, row.id, Prefill(row))
  }

  /** `closeModal`: closed, no id, every input empty, no image. */
  function HandleClose(s: Editor<ProjectForm>): (r: Editor<ProjectForm>)
    ensures !r.open && r.editingId.None? && r.file.None?
    ensures r.form.title == "" && r.form.description == "" && r.form.link == ""
  {
    CloseModal(s, EmptyForm)
  }

  /** The entry names `handleSubmit` appends, in order. */
  const TextFields: seq<string> := ["title", "description", "link"]

  /** The entries appended unconditionally. */
  function TextEntries(form: ProjectForm): (r: seq<FormEntry>)
    ensures |r| == |TextFields|
  {
    [FormEntry("title", Text(form.title)),
     FormEntry("description", Text(form.description)),
     FormEntry("link", Text(form.link))]
  }

  lemma TextEntryNames(form: ProjectForm)
    ensures Names(TextEntries(form)) == TextFields
  {
    var t := TextEntries(form);
    forall i | 0 <= i < |t|
      ensures Names(t)[i] == TextFields[i]
    {
    }
  }

  /** The `FormData` of `handleSubmit`: the three text inputs, and the image
      only when one was chosen. */
  function Package(form: ProjectForm, image: Option<ClientFile>): (r: seq<FormEntry>)
    ensures Names(r) == TextFields + (if image.Some? then [R.FileField] else [])
    ensures HasFile(r, R.FileField) <==> image.Some?
    ensures image.Some? ==> Lookup(r, R.FileField) == Some(Upload(image.value))
    ensures AcceptsFiles(r, R.FileField)
  {
    TextEntryNames(form);
    AppendFile(TextEntries(form), R.FileField, image);
    TextEntries(form) + FileEntries(R.FileField, image)
  }

  /** `handleSubmit`: the call it makes and the body it sends. */
  function HandleSubmit(s: Editor<ProjectForm>): (r: Call)
    ensures r.UpdateCall? <==> Truthy(s.editingId)
    ensures r.UpdateCall? ==> r.id == s.editingId.value
    ensures HasFile(r.entries, R.FileField) <==> s.file.Some?
    ensures r.entries == Package(s.form, s.file)
  {
    Submit(s, Package(s.form, s.file))
  }

  /** No two text inputs share a name. */
  lemma TextFieldsDistinct()
    ensures forall j, k :: 0 <= j < k < |TextFields| ==> TextFields[j] != TextFields[k]
  {
  }

  /** Each text input is found under its own name. */
  lemma PackageLookup(form: ProjectForm, image: Option<ClientFile>, i: nat)
    requires i < |TextFields|
    ensures Lookup(Package(form, image), TextFields[i]) == Some(TextEntries(form)[i].value)
  {
    var r := Package(form, image);
    assert r[i] == TextEntries(form)[i];
    TextFieldsDistinct();
    forall j | 0 <= j < i
      ensures r[j].name != r[i].name
    {
      assert r[j].name == Names(r)[j] == TextFields[j];
      assert r[i].name == Names(r)[i] == TextFields[i];
    }
    LookupFirst(r, i);
  }

  /** The server reads back exactly what the form held, every input as a
      string (empty ones included, so never null). */
  lemma PackageParses(form: ProjectForm, image: Option<ClientFile>)
    ensures R.ParseBody(Package(form, image)) == Some(R.ProjectInput(
              Some(form.title), Some(form.description), Some(form.link)))
    ensures R.SatisfiesNotNull(R.ParseBody(Package(form, image)).value)
  {
    var r := Package(form, image);
    PackageLookup(form, image, 0);
    PackageLookup(form, image, 1);
    PackageLookup(form, image, 2);
    assert BodyField(r, "title") == Str(form.title);
    assert BodyField(r, "description") == Str(form.description);
    assert BodyField(r, "link") == Str(form.link);
  }
}

=== FILE: server.dfy ===
/** The Express application as one request handler over the whole database:
    the login route, the public list routes, and the mutating routes behind
    `authenticateToken`. Each request is handled on its own; the database is
    the only state carried from one request to the next. */
module Server {
  import opened Base
  import opened Tables
  import opened Auth
  import E = ExperienceRoutes
  import Ed = EducationRoutes
  import P = ProjectRoutes

  datatype Db = Db(
    experience: Table<E.Experience>,
    education: Table<Ed.Education>,
    projects: Table<P.Project>,
    admins: seq<Admin>)

  predicate ValidDb(db: Db)
  {
    Valid(db.experience) && Valid(db.education) && Valid(db.projects)
  }

  /** A request after routing and body parsing. The login password is
      `None` when the body's `password` is absent or not a string. `upload`
      is the name multer gave the file that came with the request, if one
      did; ids are the `:id` path parameter as SQLite reads it. A create or
      update whose body carries a file multer does not take never reaches
      its route: after the token check, multer's error becomes a 500. */
  datatype Request =
    | LoginRequest(username: string, password: Option<string>)
    | ListExperience
    | CreateExperience(experience: E.ExperienceInput, upload: Option<string>)
    | UpdateExperience(id: int, experience: E.ExperienceInput, upload: Option<string>)
    | DeleteExperience(id: int)
    | ListEducation
    | CreateEducation(education: Ed.EducationInput, upload: Option<string>)
    | UpdateEducation(id: int, education: Ed.EducationInput, upload: Option<string>)
    | DeleteEducation(id: int)
    | ListProjects
    | CreateProject(project: P.ProjectInput, upload: Option<string>)
    | UpdateProject(id: int, project: P.ProjectInput, upload: Option<string>)
    | DeleteProject(id: int)
    | RejectedUpload  // a create or update whose files multer refused

  /** The routes mounted behind `authenticateToken`. */
  predicate Guarded(req: Request)
  {
    !(req.LoginRequest? || req.ListExperience? || req.ListEducation? || req.ListProjects?)
  }

  predicate TargetsExperience(req: Request)
  {
    req.CreateExperience? || req.UpdateExperience? || req.DeleteExperience?
  }

  predicate TargetsEducation(req: Request)
  {
    req.CreateEducation? || req.UpdateEducation? || req.DeleteEducation?
  }

  predicate TargetsProjects(req: Request)
  {
    req.CreateProject? || req.UpdateProject? || req.DeleteProject?
  }

  /** What goes back to the client. */
  datatype Response =
    | StatusOnly(code: int)                         // `res.sendStatus`: a plain-text body
    | LoginRejected(error: string)                  // 401 `{error}`
    | LoginAccepted(token: SessionToken, username: string)
    | Added(id: nat, message: string)               // `{id: lastInsertRowid, message}`
    | Done(message: string)                         // `{message}`
    | ExperienceList(experiences: seq<E.ExperienceView>)
    | EducationList(education: seq<Row<Ed.Education>>)
    | ProjectList(projects: seq<Row<P.Project>>)
    | ServerError                                   // an uncaught throw: Express's HTML 500 page

  /** The HTTP status each answer goes out with: `sendStatus` carries its
      code, the login refusal is 401, an uncaught throw is Express's 500,
      and every other `res.json` keeps the default 200. */
  function StatusCode(r: Response): (c: int)
    ensures r.StatusOnly? ==> c == r.code
    ensures r.LoginRejected? ==> c == 401
    ensures r.ServerError? ==> c == 500
    ensures HasJsonBody(r) && !r.LoginRejected? ==> c == 200
  {
    match r
    case StatusOnly(code) => code
    case LoginRejected(_) => 401
    case ServerError => 500
    case _ => 200
  }

  /** Whether `res.json()` on the client can parse the body. */
  predicate HasJsonBody(r: Response)
  {
    !(r.StatusOnly? || r.ServerError?)
  }

  /** What the handler takes from its surroundings: the current second (for
      `created_at`), token verification, and the password comparison. */
  datatype Env = Env(now: int, verify: string -> Option<Claims>, passwordMatches: (string, string) -> bool)

  /** One request against the database. */
  function Handle(db: Db, header: Option<string>, req: Request, env: Env): (r: (Db, Response))
    requires ValidDb(db)
    ensures ValidDb(r.0)
    ensures r.0.admins == db.admins
    ensures !Guarded(req) ==> r.0 == db
    ensures Guarded(req) && Classify(header, env.verify).Unauthorized? ==> r == (db, StatusOnly(401))
    ensures Guarded(req) && Classify(header, env.verify).Forbidden? ==> r == (db, StatusOnly(403))
    ensures r.0 != db ==> Guarded(req) && Classify(header, env.verify).Authorized?
    ensures r.1.ServerError? ==> r.0 == db
    ensures !TargetsExperience(req) ==> r.0.experience == db.experience
    ensures !TargetsEducation(req) ==> r.0.education == db.education
    ensures !TargetsProjects(req) ==> r.0.projects == db.projects
    ensures Guarded(req) && Classify(header, env.verify).Authorized? ==> r == Mutate(db, req, env.now)
  {
    if !Guarded(req) then (db, Public(db, req, env))
    else
      match Classify(header, env.verify)
      case Unauthorized => (db, StatusOnly(401))
      case Forbidden => (db, StatusOnly(403))
      case Authorized(_) => Mutate(db, req, env.now)
  }

  /** The routes anyone may call; none of them writes. */
  function Public(db: Db, req: Request, env: Env): (r: Response)
    requires !Guarded(req)
    ensures req.LoginRequest? ==>
              (r.LoginRejected? <==> Login(db.admins, req.username, req.password, env.passwordMatches).InvalidCredentials?)
    ensures req.LoginRequest? ==>
              (r.ServerError? <==> FindAdmin(db.admins, req.username).Some? && req.password.None?)
    ensures req.LoginRequest? && r.LoginRejected? ==> r.error == InvalidCredentialsMessage
    ensures req.LoginRequest? && r.LoginAccepted? ==>
              && Login(db.admins, req.username, req.password, env.passwordMatches).LoggedIn?
              && r.token == Login(db.admins, req.username, req.password, env.passwordMatches).token
              && r.username == req.username
    ensures req.ListExperience? ==> r == ExperienceList(E.List(db.experience))
    ensures req.ListEducation? ==> r.EducationList? && IsListing(db.education.rows, r.education)
    ensures req.ListProjects? ==> r.ProjectList? && IsListing(db.projects.rows, r.projects)
  {
    match req
    case LoginRequest(username, password) =>
      (match Login(db.admins, username, password, env.passwordMatches)
       case InvalidCredentials => LoginRejected(InvalidCredentialsMessage)
       case LoggedIn(token, name) => LoginAccepted(token, name)
       case LoginThrew => ServerError)
    case ListExperience => ExperienceList(E.List(db.experience))
    case ListEducation => EducationList(Ed.List(db.education))
    case ListProjects => ProjectList(P.List(db.projects))
  }

  /** The guarded routes, once the token is verified. A statement the engine
      rejects becomes a 500 and writes nothing. */
  function Mutate(db: Db, req: Request, now: int): (r: (Db, Response))
    requires ValidDb(db) && Guarded(req)
    ensures ValidDb(r.0) && r.0.admins == db.admins
    ensures r.1.ServerError? ==> r.0 == db
    ensures r.1.ServerError? || r.1.Added? || r.1.Done?
    ensures !TargetsExperience(req) ==> r.0.experience == db.experience
    ensures !TargetsEducation(req) ==> r.0.education == db.education
    ensures !TargetsProjects(req) ==> r.0.projects == db.projects
    ensures TargetsExperience(req) ==> r == MutateExperience(db, req, now)
    ensures TargetsEducation(req) ==> r == MutateEducation(db, req, now)
    ensures TargetsProjects(req) ==> r == MutateProjects(db, req, now)
    ensures req.RejectedUpload? ==> r == (db, ServerError)
  {
    if TargetsExperience(req) then MutateExperience(db, req, now)
    else if TargetsEducation(req) then MutateEducation(db, req, now)
    else if TargetsProjects(req) then MutateProjects(db, req, now)
    else (db, ServerError)
  }

  /** The experience routes: a create inserts, an update rewrites, a delete
      removes, each exactly as its route does; a rejected statement is a 500
      and changes nothing. The other tables are untouched. */
  function MutateExperience(db: Db, req: Request, now: int): (r: (Db, Response))
    requires ValidDb(db) && TargetsExperience(req)
    ensures ValidDb(r.0) && r.0 == db.(experience := r.0.experience)
    ensures r.1.ServerError? ==> r.0 == db
    ensures req.CreateExperience? ==>
              var c := E.Create(db.experience, req.experience, req.upload, now);
              && (r.1.ServerError? <==> !E.SatisfiesNotNull(req.experience))
              && (r.1.Added? <==> E.SatisfiesNotNull(req.experience))
              && (r.1.Added? ==> c.Success? && (r.0.experience, r.1.id) == c.value && r.1.message == E.AddedMessage)
    ensures req.UpdateExperience? ==>
              var u := E.Update(db.experience, req.id, req.experience, req.upload);
              && (r.1.ServerError? <==> Find(db.experience.rows, req.id).Some? && !E.SatisfiesNotNull(req.experience))
              && (r.1.Done? <==> !r.1.ServerError?)
              && (r.1.Done? ==> u.Success? && r.0.experience == u.value && r.1.message == E.UpdatedMessage)
    ensures req.DeleteExperience? ==>
              r == (db.(experience := E.Delete(db.experience, req.id)), Done(E.DeletedMessage))
  {
    match req
    case CreateExperience(input, upload) =>
      (match E.Create(db.experience, input, upload, now)
       case Failure(_) => (db, ServerError)
       case Success((t, id)) => (db.(experience := t), Added(id, E.AddedMessage)))
    case UpdateExperience(id, input, upload) =>
      (match E.Update(db.experience, id, input, upload)
       case Failure(_) => (db, ServerError)
       case Success(t) => (db.(experience := t), Done(E.UpdatedMessage)))
    case DeleteExperience(id) =>
      (db.(experience := E.Delete(db.experience, id)), Done(E.DeletedMessage))
  }

  /** The education routes: a create inserts, an update rewrites, a delete
      removes, each exactly as its route does; a rejected statement is a 500
      and changes nothing. The other tables are untouched. */
  function MutateEducation(db: Db, req: Request, now: int): (r: (Db, Response))
    requires ValidDb(db) && TargetsEducation(req)
    ensures ValidDb(r.0) && r.0 == db.(education := r.0.education)
    ensures r.1.ServerError? ==> r.0 == db
    ensures req.CreateEducation? ==>
              var c := Ed.Create(db.education, req.education, req.upload, now);
              && (r.1.ServerError? <==> !Ed.SatisfiesNotNull(req.education))
              && (r.1.Added? <==> Ed.SatisfiesNotNull(req.education))
              && (r.1.Added? ==> c.Success? && (r.0.education, r.1.id) == c.value && r.1.message == Ed.AddedMessage)
    ensures req.UpdateEducation? ==>
              var u := Ed.Update(db.education, req.id, req.education, req.upload);
              && (r.1.ServerError? <==> Find(db.education.rows, req.id).Some? && !Ed.SatisfiesNotNull(req.education))
              && (r.1.Done? <==> !r.1.ServerError?)
              && (r.1.Done? ==> u.Success? && r.0.education == u.value && r.1.message == Ed.UpdatedMessage)
    ensures req.DeleteEducation? ==>
              r == (db.(education := Ed.Delete(db.education, req.id)), Done(Ed.DeletedMessage))
  {
    match req
    case CreateEducation(input, upload) =>
      (match Ed.Create(db.education, input, upload, now)
       case Failure(_) => (db, ServerError)
       case Success((t, id)) => (db.(education := t), Added(id, Ed.AddedMessage)))
    case UpdateEducation(id, input, upload) =>
      (match Ed.Update(db.education, id, input, upload)
       case Failure(_) => (db, ServerError)
       case Success(t) => (db.(education := t), Done(Ed.UpdatedMessage)))
    case DeleteEducation(id) =>
      (db.(education := Ed.Delete(db.education, id)), Done(Ed.DeletedMessage))
  }

  /** The projects routes: a create inserts, an update rewrites, a delete
      removes, each exactly as its route does; a rejected statement is a 500
      and changes nothing. The other tables are untouched. */
  function MutateProjects(db: Db, req: Request, now: int): (r: (Db, Response))
    requires ValidDb(db) && TargetsProjects(req)
    ensures ValidDb(r.0) && r.0 == db.(projects := r.0.projects)
    ensures r.1.ServerError? ==> r.0 == db
    ensures req.CreateProject? ==>
              var c := P.Create(db.projects, req.project, req.upload, now);
              && (r.1.ServerError? <==> !P.SatisfiesNotNull(req.project))
              && (r.1.Added? <==> P.SatisfiesNotNull(req.project))
              && (r.1.Added? ==> c.Success? && (r.0.projects, r.1.id) == c.value && r.1.message == P.AddedMessage)
    ensures req.UpdateProject? ==>
              var u := P.Update(db.projects, req.id, req.project, req.upload);
              && (r.1.ServerError? <==> Find(db.projects.rows, req.id).Some? && !P.SatisfiesNotNull(req.project))
              && (r.1.Done? <==> !r.1.ServerError?)
              && (r.1.Done? ==> u.Success? && r.0.projects == u.value && r.1.message == P.UpdatedMessage)
    ensures req.DeleteProject? ==>
              r == (db.(projects := P.Delete(db.projects, req.id)), Done(P.DeletedMessage))
  {
    match req
    case CreateProject(input, upload) =>
      (match P.Create(db.projects, input, upload, now)
       case Failure(_) => (db, ServerError)
       case Success((t, id)) => (db.(projects := t), Added(id, P.AddedMessage)))
    case UpdateProject(id, input, upload) =>
      (match P.Update(db.projects, id, input, upload)
       case Failure(_) => (db, ServerError)
       case Success(t) => (db.(projects := t), Done(P.UpdatedMessage)))
    case DeleteProject(id) =>
      (db.(projects := P.Delete(db.projects, id)), Done(P.DeletedMessage))
  }

  /** Updating or deleting an id that matches no row answers with the same
      success message as a real change, and changes nothing. */
  lemma MissingIdStillSucceeds(db: Db, header: Option<string>, req: Request, env: Env)
    requires ValidDb(db)
    requires Classify(header, env.verify).Authorized?
    requires || (req.UpdateExperience? && Find(db.experience.rows, req.id).None?)
             || (req.DeleteExperience? && Find(db.experience.rows, req.id).None?)
             || (req.UpdateEducation? && Find(db.education.rows, req.id).None?)
             || (req.DeleteEducation? && Find(db.education.rows, req.id).None?)
             || (req.UpdateProject? && Find(db.projects.rows, req.id).None?)
             || (req.DeleteProject? && Find(db.projects.rows, req.id).None?)
    ensures Handle(db, header, req, env).0 == db
    ensures Handle(db, header, req, env).1.Done?
  {
  }

  /** Repeating a delete answers the same and leaves the same database. */
  lemma DeleteTwiceSameAsOnce(db: Db, header: Option<string>, id: int, env: Env)
    requires ValidDb(db)
    requires Classify(header, env.verify).Authorized?
    ensures var once := Handle(db, header, DeleteExperience(id), env);
            Handle(once.0, header, DeleteExperience(id), env) == once
  {
    DeleteIdempotent(db.experience, id);
  }

  /** Over HTTP, a login body without a string password answers 401 for an
      unknown username and 500 for a known one. */
  lemma LoginStatusRevealsUsername(db: Db, header: Option<string>, env: Env, unknown: string, known: string)
    requires ValidDb(db)
    requires forall i :: 0 <= i < |db.admins| ==> db.admins[i].username != unknown
    requires FindAdmin(db.admins, known).Some?
    ensures StatusCode(Handle(db, header, LoginRequest(unknown, None), env).1) == 401
    ensures StatusCode(Handle(db, header, LoginRequest(known, None), env).1) == 500
  {
    MissingPasswordRevealsUsername(db.admins, unknown, known, env.passwordMatches);
    LoginStatus(db, header, unknown, None, env);
    LoginStatus(db, header, known, None, env);
  }

  /** The status of a login: 401 when refused, 500 when the route throws,
      200 when accepted. */
  lemma LoginStatus(db: Db, header: Option<string>, username: string, password: Option<string>, env: Env)
    requires ValidDb(db)
    ensures var outcome := Login(db.admins, username, password, env.passwordMatches);
            StatusCode(Handle(db, header, LoginRequest(username, password), env).1)
            == (if outcome.InvalidCredentials? then 401 else if outcome.LoginThrew? then 500 else 200)
  {
  }
}

=== FILE: strings.dfy ===
/** The JavaScript string primitives the portfolio code relies on, written out:
    `split` on a one-character separator, `join`, `trim`, `startsWith` and
    `replace` with a string pattern (which replaces the first occurrence only). */
module Strings {
  import opened Base

  /** `s.split(sep)` for a one-character separator: the pieces between
      separators, so there is always one more piece than separators. */
  function Split(s: string, sep: char): (parts: seq<string>)
    ensures |parts| >= 1
    ensures forall i :: 0 <= i < |parts| ==> sep !in parts[i]
    decreases |s|
  {
    if |s| == 0 then [""]
    else
      var rest := Split(s[1..], sep);
      if s[0] == sep then [""] + rest
      else [[s[0]] + rest[0]] + rest[1..]
  }

  /** `parts.join(sep)`; the empty array joins to the empty string. */
  function Join(parts: seq<string>, sep: char): string
    decreases |parts|
  {
    if |parts| == 0 then ""
    else if |parts| == 1 then parts[0]
    else parts[0] + [sep] + Join(parts[1..], sep)
  }

  /** A piece without the separator splits to itself. */
  lemma {:induction false} SplitWithoutSeparator(w: string, sep: char)
    requires sep !in w
    ensures Split(w, sep) == [w]
    decreases |w|
  {
    if |w| > 0 {
      assert sep !in w[1..];
      SplitWithoutSeparator(w[1..], sep);
      assert w[0] != sep;
      assert [w[0]] + w[1..] == w;
    }
  }

  /** Splitting stops at the first separator: what precedes it is the first piece. */
  lemma {:induction false} SplitAtFirstSeparator(w: string, sep: char, x: string)
    requires sep !in w
    ensures Split(w + [sep] + x, sep) == [w] + Split(x, sep)
    decreases |w|
  {
    var s := w + [sep] + x;
    if |w| == 0 {
      assert s == [sep] + x;
      assert s[1..] == x;
    } else {
      assert s[0] == w[0];
      assert s[1..] == w[1..] + [sep] + x;
      assert sep !in w[1..];
      SplitAtFirstSeparator(w[1..], sep, x);
      assert [w[0]] + w[1..] == w;
    }
  }

  /** Splitting a join gives back the pieces, provided none contains the separator. */
  lemma {:induction false} SplitJoin(parts: seq<string>, sep: char)
    requires |parts| >= 1
    requires forall i :: 0 <= i < |parts| ==> sep !in parts[i]
    ensures Split(Join(parts, sep), sep) == parts
    decreases |parts|
  {
    if |parts| == 1 {
      SplitWithoutSeparator(parts[0], sep);
    } else {
      SplitJoin(parts[1..], sep);
      SplitAtFirstSeparator(parts[0], sep, Join(parts[1..], sep));
      assert [parts[0]] + parts[1..] == parts;
    }
  }

  /** Joining the pieces of a split gives back the text. */
  lemma {:induction false} JoinSplit(s: string, sep: char)
    ensures Join(Split(s, sep), sep) == s
    decreases |s|
  {
    if |s| > 0 {
      var rest := Split(s[1..], sep);
      JoinSplit(s[1..], sep);
      if s[0] == sep {
        assert Split(s, sep) == [""] + rest;
        assert ([""] + rest)[1..] == rest;
        assert s == [sep] + s[1..];
      } else {
        var parts := [[s[0]] + rest[0]] + rest[1..];
        assert Split(s, sep) == parts;
        if |rest| == 1 {
          assert s[1..] == rest[0];
        } else {
          assert parts[1..] == rest[1..];
          assert Join(rest, sep) == rest[0] + [sep] + Join(rest[1..], sep);
        }
        assert s == [s[0]] + s[1..];
      }
    }
  }

  /** The characters JavaScript's `trim` removes: the WhiteSpace and
      LineTerminator productions of ECMAScript (tab, vertical tab, form feed,
      space, no-break space, byte order mark, the space separators of Unicode
      category Zs, line feed, carriage return, line and paragraph separators). */
  predicate IsWhitespace(c: char)
  {
    || c == '\t' || c == '\U{000B}' || c == '\U{000C}' || c == ' '
    || c == '\U{00A0}' || c == '\U{FEFF}' || c == '\U{1680}'
    || ('\U{2000}' <= c <= '\U{200A}') || c == '\U{202F}' || c == '\U{205F}' || c == '\U{3000}'
    || c == '\n' || c == '\r' || c == '\U{2028}' || c == '\U{2029}'
  }

  /** A line holding nothing but whitespace (the empty line included). */
  predicate Blank(s: string)
  {
    forall i :: 0 <= i < |s| ==> IsWhitespace(s[i])
  }

  /** `trimStart`: the longest suffix of `s` that does not begin with whitespace. */
  function TrimStart(s: string): (r: string)
    ensures |r| <= |s| && r == s[|s| - |r|..]
    ensures forall i :: 0 <= i < |s| - |r| ==> IsWhitespace(s[i])
    ensures |r| > 0 ==> !IsWhitespace(r[0])
    decreases |s|
  {
    if |s| > 0 && IsWhitespace(s[0]) then TrimStart(s[1..]) else s
  }

  /** `trimEnd`: the longest prefix of `s` that does not end with whitespace. */
  function TrimEnd(s: string): (r: string)
    ensures |r| <= |s| && r == s[..|r|]
    ensures forall i :: |r| <= i < |s| ==> IsWhitespace(s[i])
    ensures |r| > 0 ==> !IsWhitespace(r[|r| - 1])
    decreases |s|
  {
    if |s| > 0 && IsWhitespace(s[|s| - 1]) then TrimEnd(s[..|s| - 1]) else s
  }

  /** `s.trim()`: `s` with the whitespace runs at both ends cut off. */
  function Trim(s: string): (r: string)
    ensures |r| <= |s|
    ensures |r| == 0 || (!IsWhitespace(r[0]) && !IsWhitespace(r[|r| - 1]))
  {
    TrimEnd(TrimStart(s))
  }

  /** A line trims to the empty string exactly when it is blank. */
  lemma TrimEmptyIffBlank(s: string)
    ensures Trim(s) == "" <==> Blank(s)
  {
    var u := TrimStart(s);
    if Blank(s) && |u| > 0 {
      assert false;
    }
    if Trim(s) == "" && |u| > 0 {
      assert false;
    }
  }

  /** `s.startsWith(p)`. */
  predicate StartsWith(s: string, p: string)
  {
    |p| <= |s| && s[..|p|] == p
  }

  /** `pat` occurs in `s` starting at index `j`. */
  predicate OccursAt(s: string, pat: string, j: int)
  {
    0 <= j && j + |pat| <= |s| && s[j..j + |pat|] == pat
  }

  /** The index of the first occurrence of `pat` in `s` at or after `from`. */
  function IndexFrom(s: string, pat: string, from: nat): (r: Option<nat>)
    ensures r.Some? ==> from <= r.value && OccursAt(s, pat, r.value)
    ensures r.Some? ==> forall j :: from <= j < r.value ==> !OccursAt(s, pat, j)
    ensures r.None? ==> forall j :: from <= j ==> !OccursAt(s, pat, j)
    decreases |s| - from
  {
    if from + |pat| > |s| then None
    else if s[from..from + |pat|] == pat then Some(from)
    else IndexFrom(s, pat, from + 1)
  }

  /** `s.replace(pat, '')`: the first occurrence of `pat`, if any, is removed
      and every later occurrence is kept. */
  function RemoveFirst(s: string, pat: string): (r: string)
    ensures (forall j :: !OccursAt(s, pat, j)) ==> r == s
    ensures forall i ::
              OccursAt(s, pat, i) && (forall j :: 0 <= j < i ==> !OccursAt(s, pat, j))
              ==> r == s[..i] + s[i + |pat|..]
  {
    match IndexFrom(s, pat, 0)
    case None => s
    case Some(i) => s[..i] + s[i + |pat|..]
  }
}

=== FILE: tables.dfy ===
/** The row store behind each resource route: a SQLite table whose
    `id INTEGER PRIMARY KEY AUTOINCREMENT` column is filled from a
    high-water mark that never goes down, and whose `created_at` column
    defaults to the current time at one-second resolution. A table is the
    sequence of its rows in `id` order (the order of a full table scan) plus
    that high-water mark. */
module Tables {
  import opened Base

  /** One stored row: the engine-assigned id, the creation second, and the
      resource's own columns. */
  datatype Row<F> = Row(id: nat, createdAt: int, fields: F)

  /** The rows in id order, and the largest id ever handed out
      (what SQLite keeps in `sqlite_sequence`). */
  datatype Table<F> = Table(rows: seq<Row<F>>, lastId: nat)

  /** Why a statement was rejected by the engine: a NOT NULL column was bound
      to null (an absent request field binds as null). */
  datatype DbError = NotNullViolation

  /** Ids are positive, never above the high-water mark, and strictly
      increasing along the table (hence unique). */
  predicate Valid<F>(t: Table<F>)
  {
    && (forall i :: 0 <= i < |t.rows| ==> 1 <= t.rows[i].id <= t.lastId)
    && (forall i, j :: 0 <= i < j < |t.rows| ==> t.rows[i].id < t.rows[j].id)
  }

  function Empty<F>(): (t: Table<F>)
    ensures Valid(t) && |t.rows| == 0
  {
    Table([], 0)
  }

  /** `WHERE id = ?`: the row carrying `id`, if any. */
  function Find<F>(rows: seq<Row<F>>, id: int): (r: Option<Row<F>>)
    ensures r.Some? ==> r.value in rows && r.value.id == id
    ensures r.None? <==> forall i :: 0 <= i < |rows| ==> rows[i].id != id
    decreases |rows|
  {
    if |rows| == 0 then None
    else if rows[0].id == id then Some(rows[0])
    else Find(rows[1..], id)
  }

  /** Appending a row leaves every earlier lookup alone. */
  lemma {:induction false} FindAppend<F>(rows: seq<Row<F>>, x: Row<F>, k: int)
    ensures Find(rows + [x], k) ==
              (if Find(rows, k).Some? then Find(rows, k)
               else if x.id == k then Some(x) else None)
    decreases |rows|
  {
    if |rows| > 0 {
      assert (rows + [x])[1..] == rows[1..] + [x];
      FindAppend(rows[1..], x, k);
    }
  }

  /** `INSERT`: the new row gets the id one above the high-water mark, which
      becomes the new high-water mark. Returns the table and
      `lastInsertRowid`. */
  function Insert<F>(t: Table<F>, createdAt: int, fields: F): (r: (Table<F>, nat))
    requires Valid(t)
    ensures Valid(r.0)
    ensures r.1 > t.lastId && r.0.lastId == r.1
    ensures forall i :: 0 <= i < |t.rows| ==> t.rows[i].id < r.1
    ensures |r.0.rows| == |t.rows| + 1
    ensures Find(r.0.rows, r.1) == Some(Row(r.1, createdAt, fields))
    ensures forall k :: k != r.1 ==> Find(r.0.rows, k) == Find(t.rows, k)
  {
    var id := t.lastId + 1;
    var row := Row(id, createdAt, fields);
    AppendNewId(t.rows, row);
    AppendAboveMarkValid(t, row);
    (Table(t.rows + [row], id), id)
  }

  /** A row appended above the high-water mark keeps the ids increasing. */
  lemma AppendAboveMarkValid<F>(t: Table<F>, x: Row<F>)
    requires Valid(t) && x.id == t.lastId + 1
    ensures Valid(Table(t.rows + [x], x.id))
  {
    var rows := t.rows + [x];
    forall i, j | 0 <= i < j < |rows|
      ensures rows[i].id < rows[j].id
    {
      if j == |t.rows| {
        assert rows[i] == t.rows[i];
      }
    }
  }

  /** Appending a row whose id is new finds that row under its id and
      leaves every other lookup alone. */
  lemma AppendNewId<F>(rows: seq<Row<F>>, x: Row<F>)
    requires forall i :: 0 <= i < |rows| ==> rows[i].id < x.id
    ensures Find(rows + [x], x.id) == Some(x)
    ensures forall k :: k != x.id ==> Find(rows + [x], k) == Find(rows, k)
  {
    FindAppend(rows, x, x.id);
    forall k | k != x.id
      ensures Find(rows + [x], k) == Find(rows, k)
    {
      FindAppend(rows, x, k);
    }
  }

  /** `UPDATE ... WHERE id = ?` on the row sequence: `g` rewrites the columns
      of the rows carrying `id`; ids and creation times never change. */
  function MapRows<F>(rows: seq<Row<F>>, id: int, g: F -> F): (r: seq<Row<F>>)
    ensures |r| == |rows|
    ensures forall i :: 0 <= i < |rows| ==> r[i].id == rows[i].id && r[i].createdAt == rows[i].createdAt
    ensures Find(r, id) == (match Find(rows, id)
                            case None => None
                            case Some(row) => Some(row.(fields := g(row.fields))))
    ensures forall k :: k != id ==> Find(r, k) == Find(rows, k)
    ensures Find(rows, id).None? ==> r == rows
    decreases |rows|
  {
    if |rows| == 0 then []
    else
      var head := if rows[0].id == id then rows[0].(fields := g(rows[0].fields)) else rows[0];
      [head] + MapRows(rows[1..], id, g)
  }

  /** `UPDATE ... WHERE id = ?`: rewrites the matching row, if any; the high
      water mark and every other row are untouched, and an id that matches
      nothing leaves the table as it was. */
  function Update<F>(t: Table<F>, id: int, g: F -> F): (r: Table<F>)
    requires Valid(t)
    ensures Valid(r) && r.lastId == t.lastId && |r.rows| == |t.rows|
    ensures Find(r.rows, id) == (match Find(t.rows, id)
                                 case None => None
                                 case Some(row) => Some(row.(fields := g(row.fields))))
    ensures forall k :: k != id ==> Find(r.rows, k) == Find(t.rows, k)
    ensures Find(t.rows, id).None? ==> r == t
  {
    Table(MapRows(t.rows, id, g), t.lastId)
  }

  /** `DELETE ... WHERE id = ?` on the row sequence: keeps, in order, the
      rows not carrying `id`. */
  function RemoveRows<F>(rows: seq<Row<F>>, id: int): (r: seq<Row<F>>)
    ensures forall i :: 0 <= i < |r| ==> r[i].id != id
    ensures Find(rows, id).None? ==> r == rows
    decreases |rows|
  {
    if |rows| == 0 then []
    else
      var rest := RemoveRows(rows[1..], id);
      if rows[0].id == id then rest else [rows[0]] + rest
  }

  /** Removing rows keeps bounds on the remaining ids. */
  lemma {:induction false} RemoveRowsWithin<F>(rows: seq<Row<F>>, id: int, lo: int, hi: int)
    requires forall i :: 0 <= i < |rows| ==> lo < rows[i].id <= hi
    ensures forall i :: 0 <= i < |RemoveRows(rows, id)| ==> lo < RemoveRows(rows, id)[i].id <= hi
    decreases |rows|
  {
    if |rows| > 0 {
      RemoveRowsWithin(rows[1..], id, lo, hi);
      var rest := RemoveRows(rows[1..], id);
      if rows[0].id != id {
        var r := [rows[0]] + rest;
        assert RemoveRows(rows, id) == r;
        forall i | 0 <= i < |r|
          ensures lo < r[i].id <= hi
        {
          if i > 0 { assert r[i] == rest[i - 1]; }
        }
      }
    }
  }

  /** Removing rows keeps the remaining ids increasing. */
  lemma {:induction false} RemoveRowsIncreasing<F>(rows: seq<Row<F>>, id: int)
    requires forall i, j :: 0 <= i < j < |rows| ==> rows[i].id < rows[j].id
    ensures forall i, j :: 0 <= i < j < |RemoveRows(rows, id)| ==>
              RemoveRows(rows, id)[i].id < RemoveRows(rows, id)[j].id
    decreases |rows|
  {
    if |rows| > 0 {
      var tail := rows[1..];
      RemoveRowsIncreasing(tail, id);
      RemoveRowsWithin(tail, id, rows[0].id, rows[|rows| - 1].id);
      if rows[0].id != id {
        ConsIncreasing(rows[0], RemoveRows(tail, id));
      }
    }
  }

  /** A row below every id of an increasing sequence can go in front of it. */
  lemma ConsIncreasing<F>(x: Row<F>, rest: seq<Row<F>>)
    requires forall i, j :: 0 <= i < j < |rest| ==> rest[i].id < rest[j].id
    requires forall i :: 0 <= i < |rest| ==> x.id < rest[i].id
    ensures forall i, j :: 0 <= i < j < |[x] + rest| ==> ([x] + rest)[i].id < ([x] + rest)[j].id
  {
    var r := [x] + rest;
    forall i, j | 0 <= i < j < |r|
      ensures r[i].id < r[j].id
    {
      if i > 0 { assert r[i] == rest[i - 1]; }
      assert r[j] == rest[j - 1];
    }
  }

  /** Removing the rows with `id` leaves every other lookup alone. */
  lemma {:induction false} RemoveRowsFind<F>(rows: seq<Row<F>>, id: int, k: int)
    ensures Find(RemoveRows(rows, id), k) == (if k == id then None else Find(rows, k))
    decreases |rows|
  {
    if |rows| > 0 {
      RemoveRowsFind(rows[1..], id, k);
    }
  }

  /** `DELETE ... WHERE id = ?`: the row with that id is gone, nothing else
      changes, and the high-water mark stays, so the id is never reissued. */
  function Delete<F>(t: Table<F>, id: int): (r: Table<F>)
    requires Valid(t)
    ensures Valid(r) && r.lastId == t.lastId
    ensures Find(r.rows, id).None?
    ensures forall k :: k != id ==> Find(r.rows, k) == Find(t.rows, k)
    ensures Find(t.rows, id).Some? ==> |r.rows| == |t.rows| - 1
    ensures Find(t.rows, id).None? ==> r == t
  {
    var rows := RemoveRows(t.rows, id);
    RemoveRowsIncreasing(t.rows, id);
    RemoveRowsWithin(t.rows, id, 0, t.lastId);
    assert forall k :: Find(rows, k) == (if k == id then None else Find(t.rows, k)) by {
      forall k { RemoveRowsFind(t.rows, id, k); }
    }
    if Find(t.rows, id).Some? then
      DeleteShrinksByOne(t.rows, id);
      Table(rows, t.lastId)
    else
      Table(rows, t.lastId)
  }

  /** With unique ids, deleting a present id removes exactly one row. */
  lemma {:induction false} DeleteShrinksByOne<F>(rows: seq<Row<F>>, id: int)
    requires forall i, j :: 0 <= i < j < |rows| ==> rows[i].id < rows[j].id
    requires Find(rows, id).Some?
    ensures |RemoveRows(rows, id)| == |rows| - 1
    decreases |rows|
  {
    if rows[0].id == id {
      assert Find(rows[1..], id).None?;
    } else {
      DeleteShrinksByOne(rows[1..], id);
    }
  }

  /** Deleting twice is deleting once. */
  lemma DeleteIdempotent<F>(t: Table<F>, id: int)
    requires Valid(t)
    ensures Delete(Delete(t, id), id) == Delete(t, id)
  {
  }

  /** A deleted id is never handed out again: the next insert uses a larger one. */
  lemma DeletedIdNotReissued<F>(t: Table<F>, id: int, createdAt: int, fields: F)
    requires Valid(t) && Find(t.rows, id).Some?
    ensures Insert(Delete(t, id), createdAt, fields).1 > id
  {
  }

  // ----- listing ---------------------------------------------------------

  /** `ORDER BY created_at DESC`, the whole promise of the list routes: every
      row exactly once, later creation seconds first. Rows created in the same
      second may come in either order. */
  ghost predicate IsListing<F>(rows: seq<Row<F>>, out: seq<Row<F>>)
  {
    && multiset(out) == multiset(rows)
    && forall i, j :: 0 <= i < j < |out| ==> out[i].createdAt >= out[j].createdAt
  }

  /** `a` sorts no later than `b` under `ORDER BY created_at DESC, id DESC`. */
  predicate NewerOrSame<F>(a: Row<F>, b: Row<F>)
  {
    a.createdAt > b.createdAt || (a.createdAt == b.createdAt && a.id >= b.id)
  }

  predicate NewestFirst<F>(s: seq<Row<F>>)
  {
    forall i, j :: 0 <= i < j < |s| ==> NewerOrSame(s[i], s[j])
  }

  /** Places `x` into a newest-first sequence. */
  function InsertNewest<F>(x: Row<F>, s: seq<Row<F>>): (r: seq<Row<F>>)
    requires NewestFirst(s)
    ensures |r| == |s| + 1
    ensures NewestFirst(r)
    ensures multiset(r) == multiset(s) + multiset{x}
    decreases |s|
  {
    if |s| == 0 then [x]
    else if NewerOrSame(x, s[0]) then [x] + s
    else
      var rest := InsertNewest(x, s[1..]);
      assert s == [s[0]] + s[1..];
      forall j | 0 <= j < |rest|
        ensures NewerOrSame(s[0], rest[j])
      {
        assert rest[j] in multiset(rest);
        assert rest[j] == x || rest[j] in s[1..];
      }
      ConsNewest(s[0], rest);
      [s[0]] + rest
  }

  /** A row sorting no later than every row of a newest-first sequence can
      go in front of it. */
  lemma ConsNewest<F>(y: Row<F>, rest: seq<Row<F>>)
    requires NewestFirst(rest)
    requires forall j :: 0 <= j < |rest| ==> NewerOrSame(y, rest[j])
    ensures NewestFirst([y] + rest)
  {
    var r := [y] + rest;
    forall i, j | 0 <= i < j < |r|
      ensures NewerOrSame(r[i], r[j])
    {
      if i > 0 { assert r[i] == rest[i - 1]; }
      assert r[j] == rest[j - 1];
    }
  }

  /** The list routes' result, with ties between rows of the same creation
      second broken by the larger (later) id first. */
  function ListNewestFirst<F>(rows: seq<Row<F>>): (r: seq<Row<F>>)
    ensures |r| == |rows|
    ensures NewestFirst(r)
    ensures multiset(r) == multiset(rows)
    decreases |rows|
  {
    if |rows| == 0 then []
    else
      assert rows == [rows[0]] + rows[1..];
      InsertNewest(rows[0], ListNewestFirst(rows[1..]))
  }

  /** The tie-broken order is one of the orders the `ORDER BY created_at DESC`
      query may return. */
  lemma ListNewestFirstIsListing<F>(rows: seq<Row<F>>)
    ensures IsListing(rows, ListNewestFirst(rows))
  {
  }

  /** As written, the query does not promise that a row created in the same
      second as an older one is listed first: after two inserts in one second,
      the older row first is an allowed answer. */
  lemma TiedListingMayPutOlderFirst<F>(f: F)
    ensures var t1 := Insert(Empty<F>(), 100, f);
            var t2 := Insert(t1.0, 100, f);
            && IsListing(t2.0.rows, t2.0.rows)
            && t2.0.rows[0].id == t1.1
            && t1.1 < t2.1
  {
    var t1 := Insert(Empty<F>(), 100, f);
    var t2 := Insert(t1.0, 100, f);
    assert t2.0.rows == [Row(1, 100, f), Row(2, 100, f)];
  }

  /** With the tie broken by id, a row just created at a time no earlier than
      any stored row is listed first. */
  lemma {:induction false} CreatedRowListedFirst<F>(t: Table<F>, now: int, fields: F)
    requires Valid(t)
    requires forall i :: 0 <= i < |t.rows| ==> t.rows[i].createdAt <= now
    ensures var (t', id) := Insert(t, now, fields);
            var out := ListNewestFirst(t'.rows);
            |out| > 0 && out[0] == Row(id, now, fields)
  {
    var (t', id) := Insert(t, now, fields);
    var x := Row(id, now, fields);
    assert t'.rows == t.rows + [x];
    forall m | 0 <= m < |t'.rows|
      ensures t'.rows[m] == x || !NewerOrSame(t'.rows[m], x)
    {
      if m < |t.rows| {
        assert t'.rows[m] == t.rows[m];
      }
    }
    UnbeatenRowListedFirst(t'.rows, x);
  }

  /** A row that no other row sorts before is listed first. */
  lemma UnbeatenRowListedFirst<F>(rows: seq<Row<F>>, x: Row<F>)
    requires x in rows
    requires forall m :: 0 <= m < |rows| ==> rows[m] == x || !NewerOrSame(rows[m], x)
    ensures |ListNewestFirst(rows)| > 0 && ListNewestFirst(rows)[0] == x
  {
    var out := ListNewestFirst(rows);
    assert x in multiset(out);
    var k :| 0 <= k < |out| && out[k] == x;
    assert NewerOrSame(out[0], x);
    assert out[0] in multiset(rows);
  }
}

=== FILE: uploads.dfy ===
/** Where an uploaded logo or image ends up. The server's multer storage
    writes the file under a generated name (a millisecond timestamp, a random
    number and the original extension); that name is an input to this model,
    supplied by the environment. The row stores the root-relative path under
    which the `/uploads` static route serves the file. */
module Uploads {
  import opened Base

  const Prefix: string := "/uploads/"

  /** The file column's value for a write: the path of the stored file when a
      file arrived with the request, null otherwise. */
  function Ref(stored: Option<string>): (r: Option<string>)
    ensures r.None? <==> stored.None?
    ensures stored.Some? ==> |r.value| == |Prefix| + |stored.value|
    ensures stored.Some? ==> r.value[..|Prefix|] == Prefix && r.value[|Prefix|..] == stored.value
  {
    match stored
    case None => None
    case Some(name) => Some(Prefix + name)
  }
}
